=== FILE: README.md ===
# Fractured Paths story runtime, in Dafny

This project models the runtime of an interactive-fiction site with two
routes, `verso` and `maelle`. A reader walks a story graph. Each choice shifts
three alignment axes (`painterAlignment`, `writerAlignment`, `balance`, each
kept in [0, 100]), sets flags and moves to the next node. Some nodes are
endings.

The browser's `localStorage` persists six kinds of data:
- the current session of each route;
- a registry of the endings ever reached;
- a fixed catalog of fifteen achievements with their stored progress;
- bookmarks;
- per-route alternate "what if" timelines;
- a main timeline, which is never stored but read from the live session.

The model covers the whole of `lib/story/persistence.ts`, the state logic of
`components/story/StoryEngine.tsx` and the records of `lib/story/types.ts`.

## Layout

| file | module | what it holds |
|---|---|---|
| `wrappers.dfy` | `Wrappers` | `Option` |
| `lists.dfy` | `Lists` | order-preserving `Filter`, `SubsequenceOf`, small sequence facts |
| `story_types.dfy` | `StoryTypes` | routes, stat keys, effects, conditions, choices, nodes, history entries, `StoryState` |
| `storage.dfy` | `Storage` | the key/value store, parsed payloads, stored record types, the storage keys |
| `session.dfy` | `Session` | initial state, load/save/clear of a route's session |
| `choice_resolver.dfy` | `ChoiceResolver` | effects with clamping, the transition of a choice, the visible-choice filter |
| `endings.dfy` | `Endings` | the ending registry |
| `achievements.dfy` | `Achievements` | the catalog, unlock and progress updates, read-side queries |
| `achievement_rules.dfy` | `AchievementRules` | `checkAndUnlockAchievements` as a list of rules and an interpreter over it |
| `bookmarks.dfy` | `Bookmarks` | bookmark CRUD |
| `timelines.dfy` | `Timelines` | alternate timelines and the synthesised main timeline |
| `story_engine.dfy` | `StoryEngine` | mount, `handleChoice`, `handleRestart` and the on-screen choices of the player component |

### The store

The store is a `Store(available, data)`.
- `data` maps each key to the value `JSON.parse` would return for the stored text.
  - `Unparseable` stands for text that does not parse.
  - `OtherJson` stands for JSON of the wrong shape (for instance an object where a list is expected).
- `available` is false where `window` is undefined, as during server-side rendering. Then reads see nothing and writes are no-ops.

Encoding followed by parsing is the identity, so saving a record and loading it back needs no separate codec.

### Parameters and conversions

- `Date.now()` readings are the parameter `nowMs: int`.
- `new Date().toISOString()` stamps are the parameter `now: IsoTime`, a non-empty string.
- The ids of new bookmarks and timelines are parameters.
- The speed rule's float minutes are replaced by whole milliseconds. `minutes < 30` is `playMs < 1_800_000` and `minutes > 120` is `playMs > 7_200_000`; for an integer `playMs` each pair is equivalent.

### JavaScript truthiness

Truthiness tests are written out:
- `unlockedAt` counts as set when it is present and non-empty.
- `startTime` counts as set when it is present and not 0.
- An `endingKey` counts only when it is non-empty.

### Achievement catalog and rule battery

The catalog is a datatype `CatalogId` of fifteen constructors. Each constructor's id string is its entry in `CatalogIds`.

`checkAndUnlockAchievements` is modelled as a rule list, the `Battery`, run by `Run`. Each `Step` is one of:
- `unlockAchievement` behind an optional `!isAchievementUnlocked` guard;
- an `updateAchievementProgress` call.

`GuardIsRedundant` proves that the guard never changes the outcome: `unlockAchievement` rechecks it itself.

### Behaviour worth knowing

- **Rule order.** Every rule only ever unlocks, so the set of unlocked achievements does not depend on the order of the rules. The returned list does: it follows rule order. It also never contains a progress achievement, because the progress update just before each such achievement's own unlock rule has already unlocked it (`CountersPreempted`, and the `MaxProgressOf(id).None?` clause of `CheckAndUnlockAchievements`).
- **Initial stats.** A fresh session starts every axis at 0 (`Session.InitialState`).
- **Achievements off the player.** The player component registers endings but never evaluates achievements (`StoryEngine.ChoiceLeavesAchievements`).

## Model

| member | source | states |
|---|---|---|
| StoryTypes.ParseRoute | lib/story/types.ts:3 | a route id is exactly one of the two strings `"verso"` and `"maelle"`, and parsing gives the route whose name it is |
| StoryTypes.RouteNameRoundTrip | lib/story/types.ts:3 | each route's name parses back to that route, and the two names differ |
| StoryTypes.StatKeyOf | lib/story/types.ts:6-10 | a stat key is one of the three axes; any other string names none of them |
| Storage.Get | lib/story/persistence.ts:19 | a key reads as present exactly when the store exists and holds it |
| Storage.Set | lib/story/persistence.ts:84-92 | after a write on an available store the key reads back the payload; no other key changes; without a store nothing changes |
| Storage.Remove | lib/story/persistence.ts:95-103 | after a removal the key reads as absent and no other key changes |
| Storage.StorageKeysDistinct | lib/story/persistence.ts:14-16 | the session, endings, achievements, bookmarks and timelines keys are pairwise distinct, across both routes |
| Storage.RouteKeyIsOwn | lib/story/persistence.ts:15-16 | a route's session key is none of the endings, achievements and bookmarks keys |
| Session.InitialState | lib/story/persistence.ts:22-37 | the initial state belongs to the route, stands on its start node, has seen only it, has all axes at 0, no flags, no history, chapter 1, and starts at the given time |
| Session.LoadStoryState | lib/story/persistence.ts:40-81 | loading returns the initial state when the store is missing, the key is absent, the blob does not parse or fails the shape check; otherwise it returns the blob's fields, with a missing history defaulting to empty and a missing or zero start time defaulting to now; the result always has the requested route and a start time |
| Session.SaveStoryState | lib/story/persistence.ts:84-92 | saving writes the state under its own route's key and nothing else |
| Session.ClearStoryState | lib/story/persistence.ts:95-103 | clearing touches only the route's key |
| Session.SaveLoadRoundTrip | lib/story/persistence.ts:54-71 | a saved state with a non-empty node and a non-zero start time loads back unchanged, whatever start node the loader gets, and counts as saved progress |
| Session.SaveLoadDefaultsStartTime | lib/story/persistence.ts:68-70 | a saved state without a start time, or with a zero one, loads back with `now` as its start time and is otherwise unchanged |
| Session.SaveLoadRejectsEmptyNode | lib/story/persistence.ts:54-63 | a state whose current node is empty fails the shape check and loads as the initial state |
| Session.LegacyBlobLoads | lib/story/persistence.ts:64-71 | a blob from before history and start time existed still loads, with both defaulted |
| Session.ClearForgetsProgress | lib/story/persistence.ts:95-114 | after clearing, the route has no saved progress and loads as the initial state |
| Session.SaveKeepsOtherRoute | lib/story/persistence.ts:84-92 | saving one route's session leaves what the other route loads unchanged |
| Session.HasSavedProgress | lib/story/persistence.ts:106-114 | a route has saved progress exactly when the store exists and holds a value under the route's key, whatever that value is |
| ChoiceResolver.Clamp | components/story/StoryEngine.tsx:66-69 | the result lies in [0, 100], equals the input inside that range, and is the nearer bound outside it |
| ChoiceResolver.ApplyEffect | components/story/StoryEngine.tsx:64-73 | a stat effect sets only its axis, to the clamped sum, and leaves the flags alone; a flag effect sets its key to its value, adds the key if needed, keeps other flags and leaves the stats alone |
| ChoiceResolver.ApplyEffectsSplit | components/story/StoryEngine.tsx:63-75 | effects apply in authored order: applying a concatenation is applying the first part, then the second part to the result |
| ChoiceResolver.ApplyEffectsStats | components/story/StoryEngine.tsx:64-70 | an axis that no effect touches keeps its value; a touched axis ends in [0, 100]; axes in range stay in range |
| ChoiceResolver.ApplyEffectsFlags | components/story/StoryEngine.tsx:71-73 | a flag ends with the value of the last effect that writes it, or keeps its old value (or absence) when none does |
| ChoiceResolver.FindNode | components/story/StoryEngine.tsx:84 | the lookup finds nothing exactly when no node has the id, and otherwise returns the first node with that id |
| ChoiceResolver.AddSeen | components/story/StoryEngine.tsx:79-81 | the target is added set-style: the result contains it, keeps the prior list as a prefix, grows by at most one, is unchanged when the target was already seen, and gains no duplicate |
| ChoiceResolver.ApplyChoice | components/story/StoryEngine.tsx:60-89 | after a choice the current node is the target and the target is seen; the seen list keeps its order and grows by at most one without duplicates; the chapter follows the target node when it resolves and stays otherwise; stats and flags are the effects applied in order; route, history and start time are untouched |
| ChoiceResolver.ApplyChoiceKeepsStatsInRange | lib/story/types.ts:69-73 | a transition keeps every axis in its documented 0-100 range |
| ChoiceResolver.EndingReached | components/story/StoryEngine.tsx:94-98 | an ending is registered exactly when the target resolves to a node marked as an ending with a non-empty ending key, and it is that key |
| ChoiceResolver.AvailableChoices | components/story/StoryEngine.tsx:119-134 | the visible choices are an order-preserving subsequence of the node's choices; a choice is kept exactly when it is visible, and then as many times as the node lists it |
| ChoiceResolver.StatConditionIsInclusiveRange | components/story/StoryEngine.tsx:127-131 | a stat condition on an axis holds exactly when the axis is within the bounds that are present, both inclusive |
| ChoiceResolver.FlagConditionIsEquality | components/story/StoryEngine.tsx:124-125 | a flag condition with a boolean value holds exactly when the flag is set to that value, so an absent flag matches neither true nor false |
| ChoiceResolver.ConditionFallbacks | components/story/StoryEngine.tsx:119-133 | a choice without a condition, a condition of an unknown type and a stat condition on a key that is no axis all pass; a flag condition without a value matches exactly an absent flag |
| Endings.SaveUnlockedEndings | lib/story/persistence.ts:139-147 | the registry reads back as written and no other key changes |
| Endings.LoadUnlockedEndings | lib/story/persistence.ts:119-136 | the registry is the stored list when the key holds one, and empty when the store is missing, the key is absent or it holds anything else |
| Endings.CountEndingPositive | lib/story/persistence.ts:157-159 | a pair is recorded exactly when at least one record carries it |
| Endings.IsEndingUnlocked | lib/story/persistence.ts:176-181 | an ending is unlocked exactly when the store exists and some registry record carries its route and key |
| Endings.UnlockEnding | lib/story/persistence.ts:150-173 | afterwards the ending is unlocked; an already recorded pair leaves the store untouched, timestamps included; a new pair is appended once at the end, stamped now; only the registry key changes |
| Endings.UnlockEndingIdempotent | lib/story/persistence.ts:149-173 | unlocking the same ending twice is unlocking it once, whatever the second timestamp |
| Endings.UnlockEndingKeepsPairsUnique | lib/story/persistence.ts:156-169 | if every pair is recorded at most once before an unlock, it still is afterwards |
| Endings.RouteFilter | lib/story/persistence.ts:186 | the filter keeps exactly the records of the route, in registry order, each as many times as the registry holds it |
| Endings.GetRouteUnlockedEndings | lib/story/persistence.ts:184-187 | a route's endings are the registry records of that route, in registry order and with their multiplicity; records of the other route are dropped |
| Endings.RouteFiltersPartition | lib/story/persistence.ts:184-192 | the two routes' endings together account for every registry record |
| Endings.RouteCountIsLength | lib/story/persistence.ts:184-192 | counting a route's records one by one gives the length of that route's filtered list |
| Endings.GetUnlockedEndingsCount | lib/story/persistence.ts:190-192 | the count equals the Verso endings plus the Maelle endings, that is, the registry's length |
| Endings.ClearAllEndings | lib/story/persistence.ts:195-203 | afterwards the registry reads as empty and no other key changes |
| Achievements.IndexOf | lib/story/persistence.ts:387 | the search finds nothing exactly when the id is absent, and otherwise returns its first position |
| Achievements.Lookup | lib/story/persistence.ts:387 | an id names a catalog achievement exactly when it is in the catalog, and that achievement carries the id |
| Achievements.IndexOfDistinct | lib/story/persistence.ts:221-342 | in a list without duplicates an element is found at its own position |
| Achievements.LookupId | lib/story/persistence.ts:221-342 | every catalog achievement is found again by its id |
| Achievements.CatalogIdsDistinct | lib/story/persistence.ts:221-342 | no id occurs twice in the catalog |
| Achievements.CatalogEntry | lib/story/persistence.ts:221-342 | a definition exists exactly for the catalog ids; it carries the id, has no unlock time and no progress, and has the ceiling of its achievement |
| Achievements.AllAchievements | lib/story/persistence.ts:221-342 | the catalog lists the definition of every id in `CatalogIds`, in catalog order |
| Achievements.CatalogEntryIsFind | lib/story/persistence.ts:387 | looking up an id in the catalog agrees with searching the catalog list front to back |
| Achievements.MaxProgressOf | lib/story/persistence.ts:413-414 | a ceiling exists only for catalog ids and is positive |
| Achievements.MaxProgressIsCeiling | lib/story/persistence.ts:221-272 | the ceiling of a catalog achievement is its definition's `maxProgress` |
| Achievements.FindById | lib/story/persistence.ts:383 | a search finds nothing exactly when no entry has the id, and otherwise finds an entry of the list with that id |
| Achievements.FindByIdAt | lib/story/persistence.ts:383 | the search returns the first entry with the id |
| Achievements.FindByIdAppend | lib/story/persistence.ts:383-398 | searching a concatenation looks in the suffix only when the prefix has no match |
| Achievements.CountIdAppend | lib/story/persistence.ts:397-398 | counting over a concatenation adds the two parts' counts |
| Achievements.RemoveId | lib/story/persistence.ts:397 | filtering out an id drops exactly its entries and leaves every other id's entries, counts and lookups as they were |
| Achievements.RemoveIdAppend | lib/story/persistence.ts:397-398 | filtering a concatenation filters each part |
| Achievements.RemoveIdIdempotent | lib/story/persistence.ts:397 | filtering out an id twice is filtering it once |
| Achievements.RemoveIdIsFilter | lib/story/persistence.ts:397 | filtering out an id is the order-preserving filter with the test "id differs" |
| Achievements.SaveAchievements | lib/story/persistence.ts:365-373 | the list reads back as written and no other key changes |
| Achievements.LoadAchievements | lib/story/persistence.ts:345-362 | the list is the stored one when the key holds one, and empty when the store is missing, the key is absent or it holds anything else |
| Achievements.UnlockAchievement | lib/story/persistence.ts:376-405 | unlocking succeeds exactly when the store exists, the id is in the catalog and it is not yet unlocked; on success the list holds exactly one entry for the id, the definition stamped now, and the other entries keep their order and content; on failure nothing changes |
| Achievements.ReplaceEntry | lib/story/persistence.ts:396-398 | dropping an id's entries and appending one leaves that entry as the id's only one, and every other id as it was |
| Achievements.UpdateAchievementProgress | lib/story/persistence.ts:408-436 | a no-op without a store or for an id without a ceiling; otherwise exactly one entry for the id remains, built from the stored entry (or the catalog definition with progress 0): its progress is the value capped at the ceiling, it is stamped with `now` when the value reaches the ceiling and it was not yet unlocked, keeps its old stamp otherwise, and every other field is the base entry's; other ids keep their entries |
| Achievements.UnlockKeepsUnlocked | lib/story/persistence.ts:376-405 | an unlock never re-locks any achievement |
| Achievements.UpdateKeepsUnlocked | lib/story/persistence.ts:426-428 | a progress update never re-locks any achievement |
| Achievements.UnlockKeepsIdsUnique | lib/story/persistence.ts:396-398 | unlocking keeps the stored list free of duplicate ids |
| Achievements.UpdateKeepsIdsUnique | lib/story/persistence.ts:430-432 | updating progress keeps the stored list free of duplicate ids |
| Achievements.UnlockedMeansStamped | lib/story/persistence.ts:439-445 | an unlocked achievement has a stored entry with its id and a truthy stamp; when the stored ids are unique, that is exactly what unlocked means |
| Achievements.UniqueFind | lib/story/persistence.ts:383 | in a list where an id occurs at most once, the search for it returns that entry |
| Achievements.GetAllAchievementsWithProgress | lib/story/persistence.ts:464-474 | one entry per catalog definition, in catalog order; an entry shows as unlocked exactly when its id is; an id with a stored entry shows that stored entry itself |
| Achievements.GetAchievement | lib/story/persistence.ts:448-461 | there is a result exactly for catalog ids; it is the stored entry when one exists and otherwise the catalog definition with progress 0; it shows as unlocked exactly when the id is |
| Achievements.AllAgreesWithGetAchievement | lib/story/persistence.ts:448-474 | the full list shows, for each catalog id, exactly what the single lookup returns |
| Achievements.UpdateThenGet | lib/story/persistence.ts:408-461 | after a progress update on an available store, the lookup shows progress equal to the value capped at the ceiling, and the entry is unlocked exactly when it already was or the value reached the ceiling |
| AchievementRules.Step | lib/story/persistence.ts:481-504 | one guarded rule reports at most its own id; it reports only when that id was locked before and is unlocked after; only the achievements key changes |
| AchievementRules.StepComplete | lib/story/persistence.ts:481-504 | a rule after which an achievement without a ceiling is newly unlocked reports exactly that achievement |
| AchievementRules.GuardIsRedundant | lib/story/persistence.ts:481-482 | the `!isAchievementUnlocked` guard in front of an unlock never changes the outcome |
| AchievementRules.StepEstablishes | lib/story/persistence.ts:376-436 | a firing unlock rule, or a progress update that reaches the ceiling, leaves its achievement unlocked |
| AchievementRules.StepMonotone | lib/story/persistence.ts:384-428 | no rule re-locks an achievement |
| AchievementRules.StepLeavesOthers | lib/story/persistence.ts:397-432 | a rule leaves the stored entry of every other id as it was |
| AchievementRules.Run | lib/story/persistence.ts:477-569 | running the rules keeps availability, changes nothing without a store, and writes only the achievements key |
| AchievementRules.RunMonotone | lib/story/persistence.ts:477-569 | an unlocked achievement stays unlocked through the whole battery |
| AchievementRules.RunReport | lib/story/persistence.ts:478-568 | every reported id comes from a firing unlock rule, was locked before the run, and is unlocked after it |
| AchievementRules.RunComplete | lib/story/persistence.ts:478-568 | every achievement without a ceiling that the run newly unlocks is in the report |
| AchievementRules.RunNoDuplicates | lib/story/persistence.ts:478-568 | the reported list has no duplicates |
| AchievementRules.RunLeavesOthers | lib/story/persistence.ts:477-569 | an achievement that no rule mentions keeps its stored entry |
| AchievementRules.RunCovers | lib/story/persistence.ts:477-569 | on an available store, a rule that establishes an achievement leaves it unlocked at the end of the run |
| AchievementRules.PreemptedNotReported | lib/story/persistence.ts:490-560 | an achievement whose every unlock rule comes after a rule establishing it is never reported |
| AchievementRules.PreemptedAppend | lib/story/persistence.ts:477-569 | that preemption survives putting rule lists one after the other |
| AchievementRules.RunAppend | lib/story/persistence.ts:477-569 | running two rule lists in turn is running their concatenation, with the reports concatenated |
| AchievementRules.MaxStat | lib/story/persistence.ts:511 | the maximum is one of the three axes and at least each of them |
| AchievementRules.MinStat | lib/story/persistence.ts:512 | the minimum is one of the three axes and at most each of them |
| AchievementRules.BalancedMeansPairwiseClose | lib/story/persistence.ts:510-515 | the `balanced` condition holds exactly when every two axes are within 15 of each other and some axis is positive |
| AchievementRules.BatterySound | lib/story/persistence.ts:477-569 | on any store and for any counts, the battery reports only ids of firing rules, each locked before and unlocked after, once each, and only catalog achievements without a ceiling; off an ending only `first_steps` is reported and only the opening rules' achievements can change |
| AchievementRules.BatteryReport | lib/story/persistence.ts:478-568 | each reported id comes from a firing unlock rule of the battery, was locked before, is unlocked after, and has no progress ceiling |
| AchievementRules.OpeningFiring | lib/story/persistence.ts:480-504 | off an ending, the only unlock rule of the opening block for an achievement without a ceiling is `first_steps` |
| AchievementRules.OpeningPreempted | lib/story/persistence.ts:490-504 | in the opening block, each explorer's progress update precedes its unlock rule |
| AchievementRules.EventRulesPreempted | lib/story/persistence.ts:506-541 | the alignment and speed blocks never unlock a progress achievement |
| AchievementRules.CompletionPreempted | lib/story/persistence.ts:543-565 | in the completion block, each completionist's progress update precedes its unlock rule |
| AchievementRules.BatteryAtEnding | lib/story/persistence.ts:477-569 | at an ending, the battery is the opening, alignment, speed and completion blocks in that order |
| AchievementRules.RunKeepsEndingCounts | lib/story/persistence.ts:543-547 | no achievement rule changes the ending registry, so the counts it yields are the same before and after |
| AchievementRules.BatteryCovers | lib/story/persistence.ts:477-569 | any battery rule that establishes an achievement leaves it unlocked after the call |
| AchievementRules.OpeningCovers | lib/story/persistence.ts:480-504 | any opening rule that establishes an achievement leaves it unlocked after the call |
| AchievementRules.CheckAndUnlockAchievements | lib/story/persistence.ts:477-569 | every reported id comes from a battery rule whose condition held, was locked before and is unlocked after, appears once, and is a catalog achievement without a ceiling; off an ending only `first_steps` can be reported, and every achievement outside the opening rules keeps its stored entry; only the achievements key changes |
| AchievementRules.ReportsEveryUnlock | lib/story/persistence.ts:477-569 | every achievement without a ceiling that the call newly unlocks is in the returned list, so the list is exactly the newly unlocked event achievements |
| AchievementRules.OffEnding | lib/story/persistence.ts:506-507 | off an ending, the only firing unlock rule that can be reported is `first_steps` |
| AchievementRules.CountersPreempted | lib/story/persistence.ts:490-560 | each progress achievement's unlock rule comes after the progress update that already establishes it |
| AchievementRules.CheckIdempotent | lib/story/persistence.ts:477-569 | a repeat call with the same state reports nothing new |
| AchievementRules.CountsReadInPlace | lib/story/persistence.ts:543-550 | the ending counts read after the opening, alignment and speed rules equal those read before, so reading them up front changes nothing |
| AchievementRules.CoversFirstMilestones | lib/story/persistence.ts:480-488 | a first visit leaves `first_steps` unlocked and an ending leaves `first_ending` unlocked |
| AchievementRules.CoversExplorer | lib/story/persistence.ts:490-504 | reaching 50, 100 or 200 seen nodes leaves the matching explorer achievement unlocked |
| AchievementRules.CoversAlignment | lib/story/persistence.ts:506-528 | at an ending, `balanced` and each pure alignment at 90 or more leave their achievement unlocked |
| AchievementRules.CoversSpeed | lib/story/persistence.ts:530-541 | at an ending with a set start time, under 30 minutes unlocks `speed_reader` and over 120 minutes unlocks `marathon_reader` |
| AchievementRules.CoversCompletion | lib/story/persistence.ts:543-565 | at an ending, 25 Verso endings, 25 Maelle endings, 50 in total, and one on each route unlock their achievements, the counts being the lengths of the two routes' ending lists |
| AchievementRules.EndingCountsAreRouteLengths | lib/story/persistence.ts:543-547 | the counts the completion block reads are the lengths of the two routes' ending lists |
| AchievementRules.CompletionBlockCovers | lib/story/persistence.ts:543-565 | at an ending, each completion threshold reached by the registry counts leaves its achievement unlocked |
| AchievementRules.CompletionRuleCovers | lib/story/persistence.ts:543-565 | any completion rule that establishes an achievement leaves it unlocked after the call |
| Bookmarks.SaveBookmarks | lib/story/persistence.ts:607-615 | the list reads back as written and no other key changes |
| Bookmarks.LoadBookmarks | lib/story/persistence.ts:587-604 | the list is the stored one when the key holds one, and empty when the store is missing, the key is absent or it holds anything else |
| Bookmarks.AddBookmark | lib/story/persistence.ts:618-630 | the new bookmark is the caller's fields plus the given id and time; it is appended once with no duplicate check and is returned even without a store |
| Bookmarks.RemoveBookmark | lib/story/persistence.ts:632-636 | exactly the bookmarks with the id disappear; every other bookmark stays, in order and as many times as it was stored |
| Bookmarks.WithNote | lib/story/persistence.ts:641-643 | the list keeps its length; entries with the id get the note and the others are unchanged |
| Bookmarks.UpdateBookmarkNote | lib/story/persistence.ts:639-646 | length and order are kept; an entry with the id gets the note and keeps every other field; other entries are untouched |
| Bookmarks.GetRouteBookmarks | lib/story/persistence.ts:648-650 | a route's bookmarks are the stored ones of that route, in stored order and with their multiplicity |
| Bookmarks.IsNodeBookmarked | lib/story/persistence.ts:653-656 | a node is bookmarked exactly when some stored bookmark has that route and node |
| Bookmarks.MarksNodeIffExists | lib/story/persistence.ts:655 | the front-to-back scan succeeds exactly when the list holds a matching bookmark |
| Bookmarks.NodeBookmarkedIffRouteBookmark | lib/story/persistence.ts:648-656 | a node is bookmarked on a route exactly when that route's bookmarks include one for it |
| Bookmarks.AddMarksNode | lib/story/persistence.ts:618-656 | adding a bookmark marks its node on its route |
| Bookmarks.AddThenRemove | lib/story/persistence.ts:618-636 | removing a freshly added bookmark whose id was unused restores the list |
| Bookmarks.RemoveIdempotent | lib/story/persistence.ts:632-636 | removing twice is removing once |
| Bookmarks.RemoveAfterUpdate | lib/story/persistence.ts:632-646 | a note change is forgotten once the bookmark is removed |
| Bookmarks.UpdateKeepsMarks | lib/story/persistence.ts:639-656 | editing notes never changes which nodes are bookmarked |
| Timelines.SaveTimelines | lib/story/persistence.ts:693-701 | the route's list reads back as written and no other key changes |
| Timelines.LoadTimelines | lib/story/persistence.ts:673-690 | a route's list is the stored one when its key holds one, and empty when the store is missing, the key is absent or it holds anything else |
| Timelines.CreateTimeline | lib/story/persistence.ts:704-724 | the new record is not main and carries the route, name, origin and a copy of the state; it is appended to the route's list and returned even without a store |
| Timelines.FindTimeline | lib/story/persistence.ts:729 | the search finds nothing exactly when no timeline has the id, and otherwise one with the id |
| Timelines.FindTimelineIsEarliest | lib/story/persistence.ts:729 | the search returns the first timeline with the id |
| Timelines.LoadTimeline | lib/story/persistence.ts:727-730 | the result is empty exactly when no stored timeline of the route has the id, and otherwise is a stored one with it |
| Timelines.DeleteTimeline | lib/story/persistence.ts:733-737 | the id's timelines and every stored main record disappear, whatever the id; every other timeline stays, in order and as many times as it was stored |
| Timelines.GetMainTimeline | lib/story/persistence.ts:740-750 | the main timeline has id `main`, is main, carries the route and no origin, holds the session loaded from the route's start node, and is dated at that session's start time |
| Timelines.CreateThenLoad | lib/story/persistence.ts:704-730 | a new timeline with an unused id is what loading that id returns |
| Timelines.DeleteThenLoad | lib/story/persistence.ts:727-737 | after a deletion the id loads as nothing and no main record is stored |
| Timelines.SessionSaveKeepsTimelines | lib/story/persistence.ts:714 | a timeline is a frozen copy: saving the live session leaves every stored timeline as it was |
| Timelines.MainTimelineFollowsSession | lib/story/persistence.ts:740-742 | after a session is saved, the main timeline holds that session |
| Timelines.TimelinesIsolated | lib/story/persistence.ts:670-701 | deleting on one route leaves the other route's timelines and every session alone |
| StoryEngine.ShowNode | components/story/StoryEngine.tsx:43-48 | the screen shows the node with the current id when one exists, and keeps the previous node otherwise |
| StoryEngine.Mount | components/story/StoryEngine.tsx:35-53 | mounting holds the session as loaded, writes it back under the route's key, and touches no other key |
| StoryEngine.RegisterEnding | components/story/StoryEngine.tsx:94-98 | the target's ending, if any, ends up unlocked for the player's route; without one nothing changes; only the registry key changes |
| StoryEngine.ChoiceWrites | components/story/StoryEngine.tsx:51-98 | the writes after a choice register the ending reached, leave the registry alone when there is none, and touch only the session and registry keys |
| StoryEngine.HandleChoice | components/story/StoryEngine.tsx:55-100 | the new session is the transition of the old one; the player's props are kept and the session stays on its route; an ending reached is registered for the player's route; only the session and registry keys change |
| StoryEngine.HandleRestart | components/story/StoryEngine.tsx:102-107 | the session becomes the initial state of the player's route and start node, and only the route's key changes |
| StoryEngine.OnScreenChoices | components/story/StoryEngine.tsx:119-293 | no choice is offered while no node is shown or when the shown node is an ending; otherwise the offered choices are the shown node's visible choices in authored order, each as many times as the node lists it |
| StoryEngine.OnScreenChoicesStable | components/story/StoryEngine.tsx:119-134 | every offered choice passes the visibility filter, so filtering the offered choices again changes nothing |
| StoryEngine.RestartThenReload | components/story/StoryEngine.tsx:102-107 | after a restart, reloading the route gives the fresh session back |
| StoryEngine.RestartKeepsLifetimeProgress | components/story/StoryEngine.tsx:102-107 | a restart keeps the ending registry, the achievements and the bookmarks |
| StoryEngine.ChoiceLeavesAchievements | components/story/StoryEngine.tsx:55-100 | a choice never changes the achievement store, even at an ending |
| StoryEngine.ChoiceIsPersisted | components/story/StoryEngine.tsx:51-90 | after a choice, reloading the route gives the new session back |
| StoryEngine.EndingRecordedOnce | components/story/StoryEngine.tsx:94-98 | reaching an ending records it once; reaching it again adds no record |
| StoryEngine.ChoiceKeepsStatsInRange | components/story/StoryEngine.tsx:66-70 | a choice keeps the session's axes in [0, 100] |
| StoryEngine.DanglingTargetKeepsScreen | components/story/StoryEngine.tsx:43-78 | when the target id names no node, the screen keeps the previous node although the session has moved to the missing id |
| StoryEngine.MountIsStable | components/story/StoryEngine.tsx:35-53 | mounting twice in a row holds the same session and leaves the same store |
| Lists.Filter | lib/story/persistence.ts:632-636 | filtering keeps exactly the accepted elements, in order, each as many times as the input holds it, and returns a list it accepts entirely unchanged |
| Lists.FilterAppend | lib/story/persistence.ts:634 | filtering a concatenation filters each part |
| Lists.FilterIdempotent | lib/story/persistence.ts:634 | filtering twice with the same test is filtering once |
| Lists.FilterPartition | lib/story/persistence.ts:184-192 | filtering with a test and with its negation splits the list: the two lengths add up to the original |

## Left out

- JSON text, `localStorage` and the try/catch blocks. The store holds parsed values. A failing `setItem`, for instance over quota, would lose the write; it is not modelled, and every write to an available store succeeds.
- Record validation inside lists. The loaders of the endings, achievements, bookmarks and timelines accept any JSON array without checking its elements. The model's list payloads hold well-formed records only.
- Session.LoadStoryState: the shape check treats `flags` as present or absent. JavaScript also accepts any truthy non-object there, such as a number; that is not modelled.
- Session.LoadStoryState: `currentChapter` is a required number in the model. The source's shape check does not look at it, so a blob without it passes there and loads with an undefined chapter.
- Session.LoadStoryState: the shape check's truthiness tests are narrowed. `currentNodeId` is a string, non-empty to pass, where the source accepts any truthy value; `seenNodes` is a list of strings, where the source accepts any array; a start time counts as set when it is a non-zero number, where the source keeps any truthy value.
- Session.LoadStoryState: JavaScript numbers are integers in the model. Fractional stats, `NaN` and infinities in a stored blob are not modelled.
- Session.LoadStoryState: a stored `stats` object has exactly the three axes in the model. The source's shape check lets extra keys through (such as `compassion`, which the component reads), keeps them in the loaded state and writes them back on save; the model drops them. A stat condition on such a key is therefore range-checked in the source but always passes in the model (`ChoiceResolver.ConditionFallbacks`), so a choice with `{type: 'stat', key: 'compassion', min: 90}` over a stored `compassion` of 80 is hidden there and offered here.
- ChoiceResolver.ConditionHolds: flags are a map from strings to booleans. In the source `state.flags[key]` also reads inherited object properties, so a key such as `constructor` is not absent there; that is not modelled.
- AchievementRules.CheckAndUnlockAchievements: the contract states soundness of the returned list only. Completeness (every newly unlocked achievement without a ceiling is reported) is the separate lemma `ReportsEveryUnlock`, which keeps each proof small.
- Console logging, which has no effect on state.
- Clocks and randomness. `Date.now()`, `toISOString()` and the `Math.random` parts of new ids are parameters.
- AchievementRules.CheckAndUnlockAchievements: one `now` stamps every unlock of a call. The source takes a fresh time for each unlock, so its stamps can differ by milliseconds.
- Timelines.GetMainTimeline: the rendering of the start time is a caller-supplied `isoOf`. `new Date(t).toISOString()` throws for times outside its range; that is not modelled.
- The 300 ms delay, the `selectedChoice` highlight and React's scheduling in `handleChoice`. The handler is one synchronous update: the ending registration, then the save that the state change triggers. The two write different keys, so their order does not matter.
- The shallow copy in `handleChoice`. `{...prevState}` shares `stats`, `flags` and `seenNodes` with the previous state and then mutates them in place. The model's states are values, so the previous state is never changed.
- Choice history. The transition shown never appends to `choiceHistory`, so the model keeps it unchanged.
- The component's JSX, the progress bar, the alignment display (including its `stats.compassion` reference) and the rest of the site's pages. They only read the core.
- `StoryRoute` and `StoryEnding` from `lib/story/types.ts`. These are route and ending metadata that the core never reads.
- `ALL_ACHIEVEMENTS` titles, descriptions and icons are carried as text without any property beyond being copied into stored entries.

=== FILE: achievement_rules.dfy ===
/**
 * `checkAndUnlockAchievements` of lib/story/persistence.ts. The function is a
 * fixed sequence of guarded calls to `unlockAchievement` and
 * `updateAchievementProgress`; here that sequence is data (a list of rules)
 * run by a small interpreter, so that what holds for every rule list (no
 * duplicate reports, nothing re-locked, nothing else changes) is proved once
 * and the battery itself only has to be checked for its particular shape.
 */
module AchievementRules {
  import opened Wrappers
  import opened StoryTypes
  import opened Storage
  import opened Endings
  import opened Achievements
  import opened Lists

  /**
   * One guarded call of the battery.
   * - `Unlock(k, fires)`: `if (fires) { if (unlockAchievement(k)) newUnlocks.push(k) }`
   * - `UnlockIfLocked(k, fires)`: the same behind `&& !isAchievementUnlocked(k)`
   * - `Progress(k, value)`: `updateAchievementProgress(k, value)`
   */
  datatype Rule =
    | Unlock(k: CatalogId, fires: bool)
    | UnlockIfLocked(k: CatalogId, fires: bool)
    | Progress(k: CatalogId, value: int)

  /** An unlock rule whose condition holds. */
  predicate Fires(rule: Rule)
  {
    !rule.Progress? && rule.fires
  }

  /** The rule pushes `k` onto the result when its unlock succeeds. */
  predicate MayReport(rule: Rule, k: CatalogId)
  {
    Fires(rule) && rule.k == k
  }

  /** On an available store, the rule leaves `k` unlocked whatever came before. */
  predicate Establishes(rule: Rule, k: CatalogId)
  {
    rule.k == k &&
    match rule
    case Progress(_, value) => k.Ceiling().Some? && value >= k.Ceiling().value
    case _ => rule.fires
  }

  /**
   * One rule against the store: the new store and the ids it reports (none
   * or its own). A report means the id was locked before and is unlocked
   * now. Only the achievements key is written.
   */
  function Step(st: Store, rule: Rule, now: IsoTime): (r: (Store, seq<string>))
    ensures r.0.available == st.available
    ensures !st.available ==> r.0 == st && r.1 == []
    ensures r.1 == [] || (Fires(rule) && r.1 == [rule.k.Id()])
    ensures r.1 != [] ==> !IsAchievementUnlocked(st, rule.k.Id()) && IsAchievementUnlocked(r.0, rule.k.Id())
    ensures forall key :: key != AchievementsKey ==> Get(r.0, key) == Get(st, key)
  {
    match rule
    case Unlock(k, fires) =>
      if !fires then (st, [])
      else
        var u := UnlockAchievement(st, k.Id(), now);
        (u.0, if u.1 then [k.Id()] else [])
    case UnlockIfLocked(k, fires) =>
      if !fires || IsAchievementUnlocked(st, k.Id()) then (st, [])
      else
        var u := UnlockAchievement(st, k.Id(), now);
        (u.0, if u.1 then [k.Id()] else [])
    case Progress(k, value) =>
      (UpdateAchievementProgress(st, k.Id(), value, now), [])
  }

  /** The `!isAchievementUnlocked` guard changes nothing: `unlockAchievement` refuses an unlocked id itself. */
  lemma GuardIsRedundant(st: Store, k: CatalogId, fires: bool, now: IsoTime)
    ensures Step(st, UnlockIfLocked(k, fires), now) == Step(st, Unlock(k, fires), now)
  {
  }

  /** On an available store, a rule that establishes its achievement leaves it unlocked. */
  lemma StepEstablishes(st: Store, rule: Rule, now: IsoTime)
    requires st.available && Establishes(rule, rule.k)
    ensures IsAchievementUnlocked(Step(st, rule, now).0, rule.k.Id())
  {
    MaxProgressIsCeiling(rule.k);
  }

  /** A rule never re-locks an achievement. */
  lemma StepMonotone(st: Store, rule: Rule, now: IsoTime, x: string)
    requires IsAchievementUnlocked(st, x)
    ensures IsAchievementUnlocked(Step(st, rule, now).0, x)
  {
    match rule
    case Progress(k, value) => UpdateKeepsUnlocked(st, k.Id(), value, now, x);
    case Unlock(k, fires) => UnlockKeepsUnlocked(st, k.Id(), now, x);
    case UnlockIfLocked(k, fires) => UnlockKeepsUnlocked(st, k.Id(), now, x);
  }

  /** A rule leaves the stored entry of every other id as it was. */
  lemma StepLeavesOthers(st: Store, rule: Rule, now: IsoTime, x: string)
    requires x != rule.k.Id()
    ensures FindById(LoadAchievements(Step(st, rule, now).0), x) == FindById(LoadAchievements(st), x)
  {
  }

  /** The rules in order; the reports concatenated in the order they were made. */
  function Run(st: Store, rules: seq<Rule>, now: IsoTime): (r: (Store, seq<string>))
    ensures r.0.available == st.available
    ensures !st.available ==> r.0 == st && r.1 == []
    ensures forall key :: key != AchievementsKey ==> Get(r.0, key) == Get(st, key)
    decreases |rules|
  {
    if rules == [] then (st, [])
    else
      var first := Step(st, rules[0], now);
      var rest := Run(first.0, rules[1..], now);
      (rest.0, first.1 + rest.1)
  }

  /** Some firing unlock rule of the list is for `id`. */
  predicate Reportable(rules: seq<Rule>, id: string)
  {
    exists i :: 0 <= i < |rules| && Fires(rules[i]) && rules[i].k.Id() == id
  }

  /** Some rule of the list names `id`. */
  predicate Mentioned(rules: seq<Rule>, id: string)
  {
    exists i :: 0 <= i < |rules| && rules[i].k.Id() == id
  }

  /** Running the rules never re-locks an achievement. */
  lemma {:induction false} RunMonotone(st: Store, rules: seq<Rule>, now: IsoTime, x: string)
    requires IsAchievementUnlocked(st, x)
    ensures IsAchievementUnlocked(Run(st, rules, now).0, x)
    decreases |rules|
  {
    if rules != [] {
      StepMonotone(st, rules[0], now, x);
      RunMonotone(Step(st, rules[0], now).0, rules[1..], now, x);
    }
  }

  /**
   * A reported id comes from a firing unlock rule of the list, was locked
   * before the run and is unlocked after it.
   */
  lemma {:induction false} RunReport(st: Store, rules: seq<Rule>, now: IsoTime, id: string)
    requires id in Run(st, rules, now).1
    ensures Reportable(rules, id)
    ensures !IsAchievementUnlocked(st, id) && IsAchievementUnlocked(Run(st, rules, now).0, id)
    decreases |rules|
  {
    var first := Step(st, rules[0], now);
    if id in first.1 {
      assert Fires(rules[0]) && rules[0].k.Id() == id;
      RunMonotone(first.0, rules[1..], now, id);
    } else {
      RunReport(first.0, rules[1..], now, id);
      var i :| 0 <= i < |rules[1..]| && Fires(rules[1..][i]) && rules[1..][i].k.Id() == id;
      assert rules[i + 1] == rules[1..][i];
      if IsAchievementUnlocked(st, id) {
        StepMonotone(st, rules[0], now, id);
      }
    }
  }

  /**
   * A rule that newly unlocks an achievement without a progress ceiling
   * reports it: only an unlock rule for that id can unlock it, and a
   * successful unlock is always pushed.
   */
  lemma StepComplete(st: Store, rule: Rule, now: IsoTime, x: string)
    requires MaxProgressOf(x).None?
    requires !IsAchievementUnlocked(st, x) && IsAchievementUnlocked(Step(st, rule, now).0, x)
    ensures Step(st, rule, now).1 == [x]
  {
    if x != rule.k.Id() {
      StepLeavesOthers(st, rule, now, x);
      assert false;
    }
  }

  /**
   * Every achievement without a progress ceiling that the run newly unlocks
   * is reported: the converse of `RunReport`.
   */
  lemma {:induction false} RunComplete(st: Store, rules: seq<Rule>, now: IsoTime, x: string)
    requires MaxProgressOf(x).None?
    requires !IsAchievementUnlocked(st, x) && IsAchievementUnlocked(Run(st, rules, now).0, x)
    ensures x in Run(st, rules, now).1
    decreases |rules|
  {
    var first := Step(st, rules[0], now);
    if IsAchievementUnlocked(first.0, x) {
      StepComplete(st, rules[0], now, x);
    } else {
      RunComplete(first.0, rules[1..], now, x);
    }
  }

  /** No id is reported twice in one run. */
  lemma {:induction false} RunNoDuplicates(st: Store, rules: seq<Rule>, now: IsoTime)
    ensures NoDuplicates(Run(st, rules, now).1)
    decreases |rules|
  {
    if rules != [] {
      var first := Step(st, rules[0], now);
      var rest := Run(first.0, rules[1..], now);
      RunNoDuplicates(first.0, rules[1..], now);
      if first.1 != [] {
        var id := rules[0].k.Id();
        if id in rest.1 {
          RunReport(first.0, rules[1..], now, id);
        }
        PrependKeepsNoDuplicates(id, rest.1);
      }
    }
  }

  lemma PrependKeepsNoDuplicates(x: string, s: seq<string>)
    requires NoDuplicates(s) && x !in s
    ensures NoDuplicates([x] + s)
  {
    var t := [x] + s;
    forall i, j | 0 <= i < j < |t|
      ensures t[i] != t[j]
    {
      assert t[j] == s[j - 1];
      if i > 0 {
        assert t[i] == s[i - 1];
      }
    }
  }

  /** An achievement no rule names keeps its stored entry. */
  lemma {:induction false} RunLeavesOthers(st: Store, rules: seq<Rule>, now: IsoTime, x: string)
    requires !Mentioned(rules, x)
    ensures FindById(LoadAchievements(Run(st, rules, now).0), x) == FindById(LoadAchievements(st), x)
    decreases |rules|
  {
    if rules != [] {
      assert rules[0].k.Id() != x;
      StepLeavesOthers(st, rules[0], now, x);
      assert !Mentioned(rules[1..], x);
      RunLeavesOthers(Step(st, rules[0], now).0, rules[1..], now, x);
    }
  }

  /** On an available store, a rule that establishes `k` leaves it unlocked at the end of the run. */
  lemma RunCovers(st: Store, rules: seq<Rule>, now: IsoTime, i: nat, k: CatalogId)
    requires st.available
    requires i < |rules| && Establishes(rules[i], k)
    ensures IsAchievementUnlocked(Run(st, rules, now).0, k.Id())
  {
    var before, from := rules[..i], rules[i..];
    TakeDrop(rules, i);
    RunAppend(st, before, from, now);
    RunCoversHead(Run(st, before, now).0, from, now, k);
  }

  /** The first rule of a run, when it establishes `k`, leaves `k` unlocked at the end. */
  lemma RunCoversHead(st: Store, rules: seq<Rule>, now: IsoTime, k: CatalogId)
    requires st.available
    requires rules != [] && Establishes(rules[0], k)
    ensures IsAchievementUnlocked(Run(st, rules, now).0, k.Id())
  {
    var first := Step(st, rules[0], now);
    StepEstablishes(st, rules[0], now);
    RunMonotone(first.0, rules[1..], now, k.Id());
  }

  /** Every firing unlock rule for `k` has an earlier rule that already establishes `k`. */
  predicate Preempted(rules: seq<Rule>, k: CatalogId)
  {
    forall i :: 0 <= i < |rules| && MayReport(rules[i], k) ==> EstablishedBefore(rules, i, k)
  }

  predicate EstablishedBefore(rules: seq<Rule>, i: int, k: CatalogId)
    requires 0 <= i <= |rules|
  {
    exists j :: 0 <= j < i && Establishes(rules[j], k)
  }

  /** An achievement whose every report is preempted is never reported. */
  lemma {:induction false} PreemptedNotReported(st: Store, rules: seq<Rule>, now: IsoTime, k: CatalogId)
    requires Preempted(rules, k)
    ensures k.Id() !in Run(st, rules, now).1
    decreases |rules|
  {
    if rules != [] && st.available {
      var first := Step(st, rules[0], now);
      var tail := rules[1..];
      StepSilentOn(st, rules[0], now, k);
      if Establishes(rules[0], k) {
        StepEstablishes(st, rules[0], now);
        if k.Id() in Run(first.0, tail, now).1 {
          RunReport(first.0, tail, now, k.Id());
        }
      } else {
        PreemptedTail(rules, k);
        PreemptedNotReported(first.0, tail, now, k);
      }
    }
  }

  /** A step that may not report `k` does not report its id. */
  lemma StepSilentOn(st: Store, rule: Rule, now: IsoTime, k: CatalogId)
    requires !MayReport(rule, k)
    ensures k.Id() !in Step(st, rule, now).1
  {
    if Step(st, rule, now).1 != [] {
      LookupId(k);
      LookupId(rule.k);
    }
  }

  /** When the head does not establish `k`, the tail stays preempted. */
  lemma PreemptedTail(rules: seq<Rule>, k: CatalogId)
    requires rules != [] && Preempted(rules, k) && !Establishes(rules[0], k)
    ensures Preempted(rules[1..], k)
  {
    var tail := rules[1..];
    forall i | 0 <= i < |tail| && MayReport(tail[i], k)
      ensures EstablishedBefore(tail, i, k)
    {
      assert rules[i + 1] == tail[i];
      var j :| 0 <= j < i + 1 && Establishes(rules[j], k);
      assert j != 0 && tail[j - 1] == rules[j];
    }
  }

  /** Preemption survives putting lists one after the other. */
  lemma PreemptedAppend(a: seq<Rule>, b: seq<Rule>, k: CatalogId)
    requires Preempted(a, k) && Preempted(b, k)
    ensures Preempted(a + b, k)
  {
    var ab := a + b;
    forall i | 0 <= i < |ab| && MayReport(ab[i], k)
      ensures EstablishedBefore(ab, i, k)
    {
      if i < |a| {
        assert ab[i] == a[i];
        var j :| 0 <= j < i && Establishes(a[j], k);
        assert ab[j] == a[j];
      } else {
        assert ab[i] == b[i - |a|];
        var j :| 0 <= j < i - |a| && Establishes(b[j], k);
        assert ab[j + |a|] == b[j];
      }
    }
  }

  /** Running two lists one after the other is running their concatenation. */
  lemma {:induction false} RunAppend(st: Store, a: seq<Rule>, b: seq<Rule>, now: IsoTime)
    ensures Run(st, a + b, now).0 == Run(Run(st, a, now).0, b, now).0
    ensures Run(st, a + b, now).1 == Run(st, a, now).1 + Run(Run(st, a, now).0, b, now).1
    decreases |a|
  {
    if a == [] {
      EmptyAppend(a, b);
    } else {
      TailOfAppend(a, b);
      var first := Step(st, a[0], now);
      RunAppend(first.0, a[1..], b, now);
      var ra := Run(first.0, a[1..], now);
      ConcatAssoc(first.1, ra.1, Run(ra.0, b, now).1);
    }
  }

  /** The larger of the three axes. */
  function MaxStat(s: Stats): (r: int)
    ensures r >= s.painterAlignment && r >= s.writerAlignment && r >= s.balance
    ensures r == s.painterAlignment || r == s.writerAlignment || r == s.balance
  {
    var m := if s.painterAlignment >= s.writerAlignment then s.painterAlignment else s.writerAlignment;
    if m >= s.balance then m else s.balance
  }

  /** The smaller of the three axes. */
  function MinStat(s: Stats): (r: int)
    ensures r <= s.painterAlignment && r <= s.writerAlignment && r <= s.balance
    ensures r == s.painterAlignment || r == s.writerAlignment || r == s.balance
  {
    var m := if s.painterAlignment <= s.writerAlignment then s.painterAlignment else s.writerAlignment;
    if m <= s.balance then m else s.balance
  }

  /** "Balanced": the three axes lie within 15 points of each other and not all at or below 0. */
  predicate IsBalanced(s: Stats)
  {
    MaxStat(s) - MinStat(s) <= 15 && MaxStat(s) > 0
  }

  /** Balance as a statement about every pair of axes. */
  lemma BalancedMeansPairwiseClose(s: Stats)
    ensures IsBalanced(s) <==>
      && -15 <= s.painterAlignment - s.writerAlignment <= 15
      && -15 <= s.writerAlignment - s.balance <= 15
      && -15 <= s.painterAlignment - s.balance <= 15
      && (s.painterAlignment > 0 || s.writerAlignment > 0 || s.balance > 0)
  {
  }

  /** The rules checked on every transition: first steps, first ending, explorer thresholds. */
  function OpeningRules(state: StoryState, isEnding: bool): seq<Rule>
  {
    var n := |state.seenNodes|;
    [ UnlockIfLocked(FirstSteps, n == 1),
      UnlockIfLocked(FirstEnding, isEnding),
      Progress(Explorer50, n),
      Progress(Explorer100, n),
      Progress(Explorer200, n),
      UnlockIfLocked(Explorer50, n >= 50),
      UnlockIfLocked(Explorer100, n >= 100),
      UnlockIfLocked(Explorer200, n >= 200) ]
  }

  /** The alignment rules, checked at endings only. */
  function AlignmentRules(s: Stats): seq<Rule>
  {
    [ Unlock(Balanced, IsBalanced(s)),
      UnlockIfLocked(PurePainter, s.painterAlignment >= 90),
      UnlockIfLocked(PureWriter, s.writerAlignment >= 90),
      UnlockIfLocked(BalancedSoul, s.balance >= 90) ]
  }

  /**
   * The speed rules, checked at endings only and only when the start time
   * is set (non-zero): under 30 minutes and over 120 minutes of play, in
   * milliseconds.
   */
  function SpeedRules(startTime: Option<int>, nowMs: int): seq<Rule>
  {
    if startTime.Some? && startTime.value != 0 then
      var playMs := nowMs - startTime.value;
      [ UnlockIfLocked(SpeedReader, playMs < 1_800_000),
        UnlockIfLocked(MarathonReader, playMs > 7_200_000) ]
    else []
  }

  /** The completionist rules over the ending counts of each route, checked at endings only. */
  function CompletionRules(versoCount: int, maelleCount: int): seq<Rule>
  {
    var total := versoCount + maelleCount;
    [ Progress(VersoCompletionist, versoCount),
      Progress(MaelleCompletionist, maelleCount),
      Progress(TrueCompletionist, total),
      Unlock(VersoCompletionist, versoCount >= 25),
      Unlock(MaelleCompletionist, maelleCount >= 25),
      Unlock(TrueCompletionist, total >= 50),
      Unlock(BothPaths, versoCount > 0 && maelleCount > 0) ]
  }

  /** The whole battery, in source order. */
  function Battery(state: StoryState, isEnding: bool, nowMs: int, versoCount: int, maelleCount: int): seq<Rule>
  {
    OpeningRules(state, isEnding)
    + (if isEnding
       then AlignmentRules(state.stats) + SpeedRules(state.startTime, nowMs) + CompletionRules(versoCount, maelleCount)
       else [])
  }

  /** The per-route ending counts the completionist rules read. */
  function EndingCounts(st: Store): (int, int)
  {
    (RouteCount(LoadUnlockedEndings(st), Verso), RouteCount(LoadUnlockedEndings(st), Maelle))
  }

  /** The counts are the lengths of the two routes' lists, as `getRouteUnlockedEndings` returns them. */
  lemma EndingCountsAreRouteLengths(st: Store)
    ensures EndingCounts(st) == (|GetRouteUnlockedEndings(st, Verso)|, |GetRouteUnlockedEndings(st, Maelle)|)
  {
    RouteCountIsLength(LoadUnlockedEndings(st), Verso);
    RouteCountIsLength(LoadUnlockedEndings(st), Maelle);
  }

  /**
   * `checkAndUnlockAchievements(state, isEnding)` with `Date.now()` as
   * `nowMs` and the unlock timestamp as `now`: the new store and the ids
   * newly unlocked by an explicit unlock, in rule order. Every reported id
   * comes from a battery rule whose condition held, was locked before and
   * is unlocked after, none twice, and none is a progress achievement
   * (those unlock inside the progress update that precedes their own
   * check). Off an ending, only `first_steps` can be reported and only the
   * opening rules' achievements can change. Only the achievements key of
   * the store is written.
   */
  function CheckAndUnlockAchievements(st: Store, state: StoryState, isEnding: bool, nowMs: int, now: IsoTime)
    : (r: (Store, seq<string>))
    ensures forall id :: id in r.1 ==>
      Reportable(Battery(state, isEnding, nowMs, EndingCounts(st).0, EndingCounts(st).1), id)
    ensures forall id :: id in r.1 ==> !IsAchievementUnlocked(st, id) && IsAchievementUnlocked(r.0, id)
    ensures NoDuplicates(r.1)
    ensures forall id :: id in r.1 ==> InCatalog(id) && MaxProgressOf(id).None?
    ensures !isEnding ==> forall id :: id in r.1 ==> id == FirstSteps.Id()
    ensures !isEnding ==> forall x :: !Mentioned(OpeningRules(state, false), x) ==>
      FindById(LoadAchievements(r.0), x) == FindById(LoadAchievements(st), x)
    ensures forall key :: key != AchievementsKey ==> Get(r.0, key) == Get(st, key)
  {
    var counts := EndingCounts(st);
    BatterySound(st, state, isEnding, nowMs, counts.0, counts.1, now);
    Run(st, Battery(state, isEnding, nowMs, counts.0, counts.1), now)
  }

  /** The battery-level facts behind the contract of `CheckAndUnlockAchievements`. */
  lemma BatterySound(st: Store, state: StoryState, isEnding: bool, nowMs: int, v: int, m: int, now: IsoTime)
    ensures var r := Run(st, Battery(state, isEnding, nowMs, v, m), now);
      && (forall id :: id in r.1 ==> Reportable(Battery(state, isEnding, nowMs, v, m), id))
      && (forall id :: id in r.1 ==> !IsAchievementUnlocked(st, id) && IsAchievementUnlocked(r.0, id))
      && NoDuplicates(r.1)
      && (forall id :: id in r.1 ==> InCatalog(id) && MaxProgressOf(id).None?)
      && (!isEnding ==> forall id :: id in r.1 ==> id == FirstSteps.Id())
      && (!isEnding ==> forall x :: !Mentioned(OpeningRules(state, false), x) ==>
            FindById(LoadAchievements(r.0), x) == FindById(LoadAchievements(st), x))
  {
    var rules := Battery(state, isEnding, nowMs, v, m);
    var r := Run(st, rules, now);
    RunNoDuplicates(st, rules, now);
    forall id | id in r.1
      ensures Reportable(rules, id)
      ensures !IsAchievementUnlocked(st, id) && IsAchievementUnlocked(r.0, id)
      ensures InCatalog(id) && MaxProgressOf(id).None?
    {
      BatteryReport(st, state, isEnding, nowMs, v, m, now, id);
    }
    if !isEnding {
      OffEnding(st, state, nowMs, v, m, now);
    }
  }

  /**
   * The report of `checkAndUnlockAchievements` is complete: an achievement
   * without a progress ceiling that the call newly unlocks is in the list it
   * returns. With the soundness clauses of its contract, the report is
   * exactly the event achievements the call unlocks.
   */
  lemma ReportsEveryUnlock(st: Store, state: StoryState, isEnding: bool, nowMs: int, now: IsoTime, id: string)
    requires MaxProgressOf(id).None?
    requires !IsAchievementUnlocked(st, id)
    requires IsAchievementUnlocked(CheckAndUnlockAchievements(st, state, isEnding, nowMs, now).0, id)
    ensures id in CheckAndUnlockAchievements(st, state, isEnding, nowMs, now).1
  {
    var counts := EndingCounts(st);
    RunComplete(st, Battery(state, isEnding, nowMs, counts.0, counts.1), now, id);
  }

  /** A reported id is an event achievement of a firing rule, locked before and unlocked after. */
  lemma BatteryReport(st: Store, state: StoryState, isEnding: bool, nowMs: int, v: int, m: int, now: IsoTime, id: string)
    requires id in Run(st, Battery(state, isEnding, nowMs, v, m), now).1
    ensures var rules := Battery(state, isEnding, nowMs, v, m);
      && Reportable(rules, id)
      && !IsAchievementUnlocked(st, id) && IsAchievementUnlocked(Run(st, rules, now).0, id)
      && InCatalog(id) && MaxProgressOf(id).None?
  {
    var rules := Battery(state, isEnding, nowMs, v, m);
    RunReport(st, rules, now, id);
    var i :| 0 <= i < |rules| && Fires(rules[i]) && rules[i].k.Id() == id;
    var k := rules[i].k;
    if k.Ceiling().Some? {
      CountersPreempted(state, isEnding, nowMs, v, m, k);
      PreemptedNotReported(st, rules, now, k);
    }
    MaxProgressIsCeiling(k);
  }

  /** Off an ending, only `first_steps` can be reported and only the opening rules' achievements change. */
  lemma OffEnding(st: Store, state: StoryState, nowMs: int, v: int, m: int, now: IsoTime)
    ensures var r := Run(st, Battery(state, false, nowMs, v, m), now);
      && (forall id :: id in r.1 ==> id == FirstSteps.Id())
      && (forall x :: !Mentioned(OpeningRules(state, false), x) ==>
            FindById(LoadAchievements(r.0), x) == FindById(LoadAchievements(st), x))
  {
    var rules := Battery(state, false, nowMs, v, m);
    assert rules == OpeningRules(state, false);
    var r := Run(st, rules, now);
    forall id | id in r.1
      ensures id == FirstSteps.Id()
    {
      BatteryReport(st, state, false, nowMs, v, m, now, id);
      var i :| 0 <= i < |rules| && Fires(rules[i]) && rules[i].k.Id() == id;
      MaxProgressIsCeiling(rules[i].k);
      OpeningFiring(state, i);
    }
    forall x | !Mentioned(rules, x)
      ensures FindById(LoadAchievements(r.0), x) == FindById(LoadAchievements(st), x)
    {
      RunLeavesOthers(st, rules, now, x);
    }
  }

  /** Off an ending, the only firing opening rule for an achievement without a ceiling is `first_steps`. */
  lemma OpeningFiring(state: StoryState, i: nat)
    requires i < 8
    requires Fires(OpeningRules(state, false)[i]) && OpeningRules(state, false)[i].k.Ceiling().None?
    ensures OpeningRules(state, false)[i].k == FirstSteps
  {
  }

  /** Each explorer unlock follows the progress update that reaches its threshold. */
  lemma OpeningPreempted(state: StoryState, isEnding: bool, k: CatalogId)
    requires k.Ceiling().Some?
    ensures Preempted(OpeningRules(state, isEnding), k)
  {
    var rules := OpeningRules(state, isEnding);
    forall i | 0 <= i < |rules| && MayReport(rules[i], k)
      ensures EstablishedBefore(rules, i, k)
    {
      assert Establishes(rules[i - 3], k);
    }
  }

  /** The alignment and speed rules never name a progress achievement. */
  lemma EventRulesPreempted(s: Stats, startTime: Option<int>, nowMs: int, k: CatalogId)
    requires k.Ceiling().Some?
    ensures Preempted(AlignmentRules(s) + SpeedRules(startTime, nowMs), k)
  {
  }

  /** Each completionist unlock follows the progress update that reaches its threshold. */
  lemma CompletionPreempted(v: int, m: int, k: CatalogId)
    requires k.Ceiling().Some?
    ensures Preempted(CompletionRules(v, m), k)
  {
    var rules := CompletionRules(v, m);
    forall i | 0 <= i < |rules| && MayReport(rules[i], k)
      ensures EstablishedBefore(rules, i, k)
    {
      assert Establishes(rules[i - 3], k);
    }
  }

  /** In the battery, every explicit unlock of a progress achievement follows the progress update that already unlocked it. */
  lemma CountersPreempted(state: StoryState, isEnding: bool, nowMs: int, v: int, m: int, k: CatalogId)
    requires k.Ceiling().Some?
    ensures Preempted(Battery(state, isEnding, nowMs, v, m), k)
  {
    var opening := OpeningRules(state, isEnding);
    OpeningPreempted(state, isEnding, k);
    if isEnding {
      var events := AlignmentRules(state.stats) + SpeedRules(state.startTime, nowMs);
      EventRulesPreempted(state.stats, state.startTime, nowMs, k);
      CompletionPreempted(v, m, k);
      PreemptedAppend(events, CompletionRules(v, m), k);
      PreemptedAppend(opening, events + CompletionRules(v, m), k);
    } else {
      assert opening + [] == opening;
    }
  }

  /**
   * A second call with the same arguments reports nothing: every id the
   * battery could report is unlocked by the first call.
   */
  lemma CheckIdempotent(st: Store, state: StoryState, isEnding: bool, nowMs: int, now: IsoTime, later: IsoTime)
    ensures var first := CheckAndUnlockAchievements(st, state, isEnding, nowMs, now);
      CheckAndUnlockAchievements(first.0, state, isEnding, nowMs, later).1 == []
  {
    var first := CheckAndUnlockAchievements(st, state, isEnding, nowMs, now);
    var st1 := first.0;
    assert EndingCounts(st1) == EndingCounts(st) by {
      assert Get(st1, EndingsKey) == Get(st, EndingsKey);
    }
    var counts := EndingCounts(st);
    var rules := Battery(state, isEnding, nowMs, counts.0, counts.1);
    var second := Run(st1, rules, later);
    if second.1 != [] {
      var id := second.1[0];
      assert id in second.1;
      RunReport(st1, rules, later, id);
      var i :| 0 <= i < |rules| && Fires(rules[i]) && rules[i].k.Id() == id;
      RunCovers(st, rules, now, i, rules[i].k);
    }
  }

  /**
   * The source reads the ending counts after the opening, alignment and
   * speed rules have run; those rules only write achievements, so reading
   * them up front, as `CheckAndUnlockAchievements` does, is the same.
   */
  lemma CountsReadInPlace(st: Store, state: StoryState, nowMs: int, now: IsoTime)
    ensures var before := Run(st, OpeningRules(state, true) + AlignmentRules(state.stats) + SpeedRules(state.startTime, nowMs), now);
      var counts := EndingCounts(before.0);
      var after := Run(before.0, CompletionRules(counts.0, counts.1), now);
      CheckAndUnlockAchievements(st, state, true, nowMs, now) == (after.0, before.1 + after.1)
  {
    var head := OpeningRules(state, true) + AlignmentRules(state.stats) + SpeedRules(state.startTime, nowMs);
    RunKeepsEndingCounts(st, head, now);
    var counts := EndingCounts(st);
    var tail := CompletionRules(counts.0, counts.1);
    BatteryAtEnding(state, nowMs, counts.0, counts.1);
    RunAppend(st, head, tail, now);
  }

  /** The rules leave the ending registry, and so the counts, alone. */
  lemma RunKeepsEndingCounts(st: Store, rules: seq<Rule>, now: IsoTime)
    ensures EndingCounts(Run(st, rules, now).0) == EndingCounts(st)
  {
    assert Get(Run(st, rules, now).0, EndingsKey) == Get(st, EndingsKey);
  }

  /** At an ending the battery is the four rule blocks in source order. */
  lemma BatteryAtEnding(state: StoryState, nowMs: int, v: int, m: int)
    ensures Battery(state, true, nowMs, v, m)
      == (OpeningRules(state, true) + AlignmentRules(state.stats) + SpeedRules(state.startTime, nowMs)) + CompletionRules(v, m)
  {
    var o, a, sp, c := OpeningRules(state, true), AlignmentRules(state.stats), SpeedRules(state.startTime, nowMs), CompletionRules(v, m);
    ConcatAssoc(o, a + sp, c);
    ConcatAssoc(o, a, sp);
  }

  /** A rule of the battery that establishes `k` leaves it unlocked after the check. */
  lemma BatteryCovers(st: Store, state: StoryState, isEnding: bool, nowMs: int, now: IsoTime, i: nat, k: CatalogId)
    requires st.available
    requires i < |Battery(state, isEnding, nowMs, EndingCounts(st).0, EndingCounts(st).1)|
    requires Establishes(Battery(state, isEnding, nowMs, EndingCounts(st).0, EndingCounts(st).1)[i], k)
    ensures IsAchievementUnlocked(CheckAndUnlockAchievements(st, state, isEnding, nowMs, now).0, k.Id())
  {
    RunCovers(st, Battery(state, isEnding, nowMs, EndingCounts(st).0, EndingCounts(st).1), now, i, k);
  }

  /** An opening rule that establishes `k` leaves it unlocked after the check. */
  lemma OpeningCovers(st: Store, state: StoryState, isEnding: bool, nowMs: int, now: IsoTime, i: nat, k: CatalogId)
    requires st.available
    requires i < 8 && Establishes(OpeningRules(state, isEnding)[i], k)
    ensures IsAchievementUnlocked(CheckAndUnlockAchievements(st, state, isEnding, nowMs, now).0, k.Id())
  {
    var counts := EndingCounts(st);
    assert Battery(state, isEnding, nowMs, counts.0, counts.1)[i] == OpeningRules(state, isEnding)[i];
    BatteryCovers(st, state, isEnding, nowMs, now, i, k);
  }

  /** On an available store, a first visit leaves first_steps unlocked and an ending leaves first_ending unlocked. */
  lemma CoversFirstMilestones(st: Store, state: StoryState, isEnding: bool, nowMs: int, now: IsoTime)
    requires st.available
    ensures var after := CheckAndUnlockAchievements(st, state, isEnding, nowMs, now).0;
      && (|state.seenNodes| == 1 ==> IsAchievementUnlocked(after, FirstSteps.Id()))
      && (isEnding ==> IsAchievementUnlocked(after, FirstEnding.Id()))
  {
    if |state.seenNodes| == 1 {
      OpeningCovers(st, state, isEnding, nowMs, now, 0, FirstSteps);
    }
    if isEnding {
      OpeningCovers(st, state, isEnding, nowMs, now, 1, FirstEnding);
    }
  }

  /**
   * On an available store, an explorer achievement is unlocked after the
   * check whenever the number of seen nodes reaches its ceiling.
   */
  lemma CoversExplorer(st: Store, state: StoryState, isEnding: bool, nowMs: int, now: IsoTime, k: CatalogId)
    requires st.available
    requires k == Explorer50 || k == Explorer100 || k == Explorer200
    ensures |state.seenNodes| >= k.Ceiling().value ==>
      IsAchievementUnlocked(CheckAndUnlockAchievements(st, state, isEnding, nowMs, now).0, k.Id())
  {
    if |state.seenNodes| >= k.Ceiling().value {
      var i := if k == Explorer50 then 2 else if k == Explorer100 then 3 else 4;
      OpeningCovers(st, state, isEnding, nowMs, now, i, k);
    }
  }

  /** At an ending on an available store, the alignment rules whose condition holds leave their achievement unlocked. */
  lemma CoversAlignment(st: Store, state: StoryState, nowMs: int, now: IsoTime)
    requires st.available
    ensures var after := CheckAndUnlockAchievements(st, state, true, nowMs, now).0;
      && (IsBalanced(state.stats) ==> IsAchievementUnlocked(after, Balanced.Id()))
      && (state.stats.painterAlignment >= 90 ==> IsAchievementUnlocked(after, PurePainter.Id()))
      && (state.stats.writerAlignment >= 90 ==> IsAchievementUnlocked(after, PureWriter.Id()))
      && (state.stats.balance >= 90 ==> IsAchievementUnlocked(after, BalancedSoul.Id()))
  {
    var counts := EndingCounts(st);
    var block := AlignmentRules(state.stats);
    EndingBatteryLayout(state, nowMs, counts.0, counts.1);
    if IsBalanced(state.stats) {
      BlockCovers(st, state, nowMs, now, 8, block, 0, Balanced);
    }
    if state.stats.painterAlignment >= 90 {
      BlockCovers(st, state, nowMs, now, 8, block, 1, PurePainter);
    }
    if state.stats.writerAlignment >= 90 {
      BlockCovers(st, state, nowMs, now, 8, block, 2, PureWriter);
    }
    if state.stats.balance >= 90 {
      BlockCovers(st, state, nowMs, now, 8, block, 3, BalancedSoul);
    }
  }

  /**
   * At an ending on an available store with a set start time, a play time
   * under 30 minutes unlocks `speed_reader` and one over 120 minutes
   * unlocks `marathon_reader`.
   */
  lemma CoversSpeed(st: Store, state: StoryState, nowMs: int, now: IsoTime)
    requires st.available
    requires state.startTime.Some? && state.startTime.value != 0
    ensures var after := CheckAndUnlockAchievements(st, state, true, nowMs, now).0;
      && (nowMs - state.startTime.value < 1_800_000 ==> IsAchievementUnlocked(after, SpeedReader.Id()))
      && (nowMs - state.startTime.value > 7_200_000 ==> IsAchievementUnlocked(after, MarathonReader.Id()))
  {
    var counts := EndingCounts(st);
    var block := SpeedRules(state.startTime, nowMs);
    EndingBatteryLayout(state, nowMs, counts.0, counts.1);
    if nowMs - state.startTime.value < 1_800_000 {
      BlockCovers(st, state, nowMs, now, 12, block, 0, SpeedReader);
    }
    if nowMs - state.startTime.value > 7_200_000 {
      BlockCovers(st, state, nowMs, now, 12, block, 1, MarathonReader);
    }
  }

  /**
   * At an ending on an available store, the completionist thresholds over
   * the registry's per-route counts, and one ending on each route for
   * `both_paths`, leave their achievement unlocked.
   */
  lemma CoversCompletion(st: Store, state: StoryState, nowMs: int, now: IsoTime)
    requires st.available
    ensures var after := CheckAndUnlockAchievements(st, state, true, nowMs, now).0;
      var v := |GetRouteUnlockedEndings(st, Verso)|;
      var m := |GetRouteUnlockedEndings(st, Maelle)|;
      && (v >= 25 ==> IsAchievementUnlocked(after, VersoCompletionist.Id()))
      && (m >= 25 ==> IsAchievementUnlocked(after, MaelleCompletionist.Id()))
      && (v + m >= 50 ==> IsAchievementUnlocked(after, TrueCompletionist.Id()))
      && (v > 0 && m > 0 ==> IsAchievementUnlocked(after, BothPaths.Id()))
  {
    EndingCountsAreRouteLengths(st);
    CompletionBlockCovers(st, state, nowMs, now);
  }

  /** `CoversCompletion` over the counts the battery reads. */
  lemma CompletionBlockCovers(st: Store, state: StoryState, nowMs: int, now: IsoTime)
    requires st.available
    ensures var after := CheckAndUnlockAchievements(st, state, true, nowMs, now).0;
      var v := EndingCounts(st).0;
      var m := EndingCounts(st).1;
      && (v >= 25 ==> IsAchievementUnlocked(after, VersoCompletionist.Id()))
      && (m >= 25 ==> IsAchievementUnlocked(after, MaelleCompletionist.Id()))
      && (v + m >= 50 ==> IsAchievementUnlocked(after, TrueCompletionist.Id()))
      && (v > 0 && m > 0 ==> IsAchievementUnlocked(after, BothPaths.Id()))
  {
    var counts := EndingCounts(st);
    if counts.0 >= 25 {
      CompletionRuleCovers(st, state, nowMs, now, 0, VersoCompletionist);
    }
    if counts.1 >= 25 {
      CompletionRuleCovers(st, state, nowMs, now, 1, MaelleCompletionist);
    }
    if counts.0 + counts.1 >= 50 {
      CompletionRuleCovers(st, state, nowMs, now, 2, TrueCompletionist);
    }
    if counts.0 > 0 && counts.1 > 0 {
      CompletionRuleCovers(st, state, nowMs, now, 6, BothPaths);
    }
  }

  /** A rule of the completion block that establishes its achievement leaves it unlocked after the call. */
  lemma CompletionRuleCovers(st: Store, state: StoryState, nowMs: int, now: IsoTime, i: nat, k: CatalogId)
    requires st.available
    requires i < 7 && Establishes(CompletionRules(EndingCounts(st).0, EndingCounts(st).1)[i], k)
    ensures IsAchievementUnlocked(CheckAndUnlockAchievements(st, state, true, nowMs, now).0, k.Id())
  {
    var counts := EndingCounts(st);
    EndingBatteryLayout(state, nowMs, counts.0, counts.1);
    BlockCovers(st, state, nowMs, now, 12 + |SpeedRules(state.startTime, nowMs)|, CompletionRules(counts.0, counts.1), i, k);
  }

  /** A rule of a block the ending battery holds at `off` covers its achievement like any battery rule. */
  lemma BlockCovers(st: Store, state: StoryState, nowMs: int, now: IsoTime, off: nat, block: seq<Rule>, i: nat, k: CatalogId)
    requires st.available
    requires off + |block| <= |Battery(state, true, nowMs, EndingCounts(st).0, EndingCounts(st).1)|
    requires Battery(state, true, nowMs, EndingCounts(st).0, EndingCounts(st).1)[off..off + |block|] == block
    requires i < |block| && Establishes(block[i], k)
    ensures IsAchievementUnlocked(CheckAndUnlockAchievements(st, state, true, nowMs, now).0, k.Id())
  {
    var rules := Battery(state, true, nowMs, EndingCounts(st).0, EndingCounts(st).1);
    assert rules[off + i] == rules[off..off + |block|][i];
    BatteryCovers(st, state, true, nowMs, now, off + i, k);
  }

  /** Where the alignment, speed and completion blocks sit in the ending battery. */
  lemma EndingBatteryLayout(state: StoryState, nowMs: int, v: int, m: int)
    ensures var rules := Battery(state, true, nowMs, v, m);
      var sp := SpeedRules(state.startTime, nowMs);
      && |rules| == 12 + |sp| + 7
      && rules[8..12] == AlignmentRules(state.stats)
      && rules[12..12 + |sp|] == sp
      && rules[12 + |sp|..12 + |sp| + 7] == CompletionRules(v, m)
  {
    BatteryAtEnding(state, nowMs, v, m);
    var o, a, sp, c := OpeningRules(state, true), AlignmentRules(state.stats), SpeedRules(state.startTime, nowMs), CompletionRules(v, m);
    SliceOfConcat(o + a + sp, c);
    SliceOfConcat(o + a, sp);
    SliceOfConcat(o, a);
  }
}

=== FILE: achievements.dfy ===
/**
 * The achievement store of lib/story/persistence.ts: the fixed catalog, and
 * the stored list of achievements with their progress and unlock time.
 * `unlockedAt` counts as set when it is a non-empty string, as JavaScript's
 * truthiness test has it.
 */
module Achievements {
  import opened Wrappers
  import opened StoryTypes
  import opened Storage
  import opened Lists

  /** The catalog ids in `ALL_ACHIEVEMENTS` order. */
  const CatalogIds: seq<string> := [
    "verso_completionist",
    "maelle_completionist",
    "true_completionist",
    "explorer_50",
    "explorer_100",
    "explorer_200",
    "balanced",
    "pure_painter",
    "pure_writer",
    "balanced_soul",
    "speed_reader",
    "marathon_reader",
    "first_steps",
    "first_ending",
    "both_paths"
  ]

  /**
   * The fifteen achievements of the catalog, in `ALL_ACHIEVEMENTS` order.
   * Each one's id string is its entry in `CatalogIds`.
   */
  datatype CatalogId =
    | VersoCompletionist | MaelleCompletionist | TrueCompletionist
    | Explorer50 | Explorer100 | Explorer200
    | Balanced | PurePainter | PureWriter | BalancedSoul
    | SpeedReader | MarathonReader
    | FirstSteps | FirstEnding | BothPaths
  {
    /** Position in the catalog. */
    function Index(): (i: nat)
      ensures i < |CatalogIds|
    {
      match this
      case VersoCompletionist => 0
      case MaelleCompletionist => 1
      case TrueCompletionist => 2
      case Explorer50 => 3
      case Explorer100 => 4
      case Explorer200 => 5
      case Balanced => 6
      case PurePainter => 7
      case PureWriter => 8
      case BalancedSoul => 9
      case SpeedReader => 10
      case MarathonReader => 11
      case FirstSteps => 12
      case FirstEnding => 13
      case BothPaths => 14
    }

    /** The id string stored in `Achievement.id`. */
    function Id(): string
    {
      CatalogIds[Index()]
    }

    /** `maxProgress`: set for the six progress achievements only. */
    function Ceiling(): (r: Option<int>)
      ensures r.Some? ==> r.value > 0
    {
      match this
      case VersoCompletionist => Some(25)
      case MaelleCompletionist => Some(25)
      case TrueCompletionist => Some(50)
      case Explorer50 => Some(50)
      case Explorer100 => Some(100)
      case Explorer200 => Some(200)
      case _ => None
    }

    /** Title, description and icon. */
    function Display(): Blurb
    {
      match this
      case VersoCompletionist => Blurb("Canvas Master", "Unlock all 25 endings for Verso", "🎨")
      case MaelleCompletionist => Blurb("Archive Keeper", "Unlock all 25 endings for Maelle", "📖")
      case TrueCompletionist => Blurb("Fractured Paths Master", "Unlock all 50 endings across both characters", "👑")
      case Explorer50 => Blurb("Curious Explorer", "Visit 50 unique story nodes", "🔍")
      case Explorer100 => Blurb("Dedicated Seeker", "Visit 100 unique story nodes", "🗺️")
      case Explorer200 => Blurb("Path Master", "Visit 200 unique story nodes", "🌟")
      case Balanced => Blurb("The Balanced", "Reach an ending with all three alignments within 15 points of each other", "⚖️")
      case PurePainter => Blurb("Pure Painter", "Reach an ending with Painter Alignment at 90+", "🖌️")
      case PureWriter => Blurb("Pure Writer", "Reach an ending with Writer Alignment at 90+", "✒️")
      case BalancedSoul => Blurb("Balanced Soul", "Reach an ending with Balance at 90+", "⚖️")
      case SpeedReader => Blurb("Speed Reader", "Complete a story in under 30 minutes", "⚡")
      case MarathonReader => Blurb("Marathon Reader", "Spend more than 2 hours in a single playthrough", "📚")
      case FirstSteps => Blurb("First Steps", "Begin your first story", "👣")
      case FirstEnding => Blurb("Path's End", "Reach your first ending", "🏁")
      case BothPaths => Blurb("Dual Perspective", "Complete stories for both Verso and Maelle", "🔄")
    }

    /** The category. */
    function Group(): Category
    {
      match this
      case VersoCompletionist => Completion
      case MaelleCompletionist => Completion
      case TrueCompletionist => Completion
      case Explorer50 => Exploration
      case Explorer100 => Exploration
      case Explorer200 => Exploration
      case Balanced => Alignment
      case PurePainter => Alignment
      case PureWriter => Alignment
      case BalancedSoul => Alignment
      case SpeedReader => Speed
      case MarathonReader => Speed
      case _ => Secret
    }

    /** The catalog definition: no `unlockedAt`, no `progress`. */
    function Definition(): Achievement
    {
      Achievement(Id(), Display().title, Display().description, Group(), Some(Display().icon), None, None, Ceiling())
    }
  }

  /** The display fields a catalog definition copies into every stored entry. */
  datatype Blurb = Blurb(title: string, description: string, icon: string)

  /** The catalog entry at a position. */
  function AtIndex(i: nat): (k: CatalogId)
    requires i < |CatalogIds|
    ensures k.Index() == i
  {
    match i
    case 0 => VersoCompletionist
    case 1 => MaelleCompletionist
    case 2 => TrueCompletionist
    case 3 => Explorer50
    case 4 => Explorer100
    case 5 => Explorer200
    case 6 => Balanced
    case 7 => PurePainter
    case 8 => PureWriter
    case 9 => BalancedSoul
    case 10 => SpeedReader
    case 11 => MarathonReader
    case 12 => FirstSteps
    case 13 => FirstEnding
    case _ => BothPaths
  }

  /** The first position of `id` in the list, if any. */
  function IndexOf(l: seq<string>, id: string): (r: Option<nat>)
    ensures r.None? <==> id !in l
    ensures r.Some? ==> r.value < |l| && l[r.value] == id
    ensures r.Some? ==> forall j :: 0 <= j < r.value ==> l[j] != id
    decreases |l|
  {
    if |l| == 0 then None
    else if l[0] == id then Some(0)
    else match IndexOf(l[1..], id)
      case None => None
      case Some(i) => Some(i + 1)
  }

  /** `ALL_ACHIEVEMENTS.find(a => a.id === id)`, by id string. */
  function Lookup(id: string): (r: Option<CatalogId>)
    ensures r.None? <==> id !in CatalogIds
    ensures r.Some? ==> r.value.Id() == id
  {
    match IndexOf(CatalogIds, id)
    case None => None
    case Some(i) => Some(AtIndex(i))
  }

  /** In a list without duplicates, the first position of an element is its only one. */
  lemma {:induction false} IndexOfDistinct(l: seq<string>, i: nat)
    requires NoDuplicates(l) && i < |l|
    ensures IndexOf(l, l[i]) == Some(i)
  {
    var r := IndexOf(l, l[i]);
    assert r.Some?;
    assert l[r.value] == l[i];
  }

  /** Positions name achievements one to one. */
  lemma AtIndexOfIndex(k: CatalogId)
    ensures AtIndex(k.Index()) == k
  {
  }

  /** Every catalog achievement is found again by its id. */
  lemma LookupId(k: CatalogId)
    ensures Lookup(k.Id()) == Some(k)
  {
    CatalogIdsDistinct();
    IndexOfDistinct(CatalogIds, k.Index());
    AtIndexOfIndex(k);
  }

  /**
   * The catalog entry of an id (`ALL_ACHIEVEMENTS.find(a => a.id === id)`):
   * definition fields only, never unlocked, no progress.
   */
  function CatalogEntry(id: string): (r: Option<Achievement>)
    ensures r.Some? <==> id in CatalogIds
    ensures r.Some? ==> r.value.id == id && r.value.unlockedAt.None? && r.value.progress.None?
    ensures r.Some? ==> r.value.maxProgress == Lookup(id).value.Ceiling()
  {
    match Lookup(id)
    case None => None
    case Some(k) => Some(k.Definition())
  }

  /** `ALL_ACHIEVEMENTS`: every catalog entry, in catalog order. */
  function AllAchievements(): (r: seq<Achievement>)
    ensures |r| == |CatalogIds|
    ensures forall i :: 0 <= i < |r| ==> Some(r[i]) == CatalogEntry(CatalogIds[i])
  {
    seq(|CatalogIds|, i requires 0 <= i < |CatalogIds| => CatalogEntry(CatalogIds[i]).value)
  }

  /** `list.find(a => a.id === id)`: the first entry with that id. */
  function FindById(l: seq<Achievement>, id: string): (r: Option<Achievement>)
    ensures r.None? <==> forall i :: 0 <= i < |l| ==> l[i].id != id
    ensures r.Some? ==> r.value in l && r.value.id == id
    decreases |l|
  {
    if |l| == 0 then None
    else if l[0].id == id then Some(l[0])
    else FindById(l[1..], id)
  }

  /** A search that misses every entry of the prefix looks only at the suffix. */
  lemma {:induction false} FindByIdAppend(a: seq<Achievement>, b: seq<Achievement>, id: string)
    ensures FindById(a + b, id) == if FindById(a, id).Some? then FindById(a, id) else FindById(b, id)
    decreases |a|
  {
    if |a| > 0 {
      TailOfAppend(a, b);
      FindByIdAppend(a[1..], b, id);
    } else {
      EmptyAppend(a, b);
    }
  }

  /** The number of entries with that id. */
  function CountId(l: seq<Achievement>, id: string): (n: nat)
    ensures n <= |l|
    decreases |l|
  {
    if |l| == 0 then 0 else (if l[0].id == id then 1 else 0) + CountId(l[1..], id)
  }

  /** Counting over a concatenation adds the counts of the two parts. */
  lemma {:induction false} CountIdAppend(a: seq<Achievement>, b: seq<Achievement>, id: string)
    ensures CountId(a + b, id) == CountId(a, id) + CountId(b, id)
    decreases |a|
  {
    if |a| > 0 {
      TailOfAppend(a, b);
      CountIdAppend(a[1..], b, id);
    } else {
      EmptyAppend(a, b);
    }
  }

  /**
   * `list.filter(a => a.id !== id)`: drops every entry with that id, so
   * lookups of other ids are unaffected (`RemoveIdIsFilter` shows it keeps
   * the others in order).
   */
  function RemoveId(l: seq<Achievement>, id: string): (r: seq<Achievement>)
    ensures forall a :: a in r <==> a in l && a.id != id
    ensures CountId(r, id) == 0
    ensures forall x :: x != id ==> CountId(r, x) == CountId(l, x)
    ensures forall x :: x != id ==> FindById(r, x) == FindById(l, x)
    decreases |l|
  {
    if |l| == 0 then []
    else
      var rest := RemoveId(l[1..], id);
      if l[0].id == id then rest
      else
        assert ([l[0]] + rest)[1..] == rest;
        [l[0]] + rest
  }

  /**
   * The entry-by-entry removal is the order-preserving filter of the list
   * library: same entries, same order, same copies.
   */
  lemma {:induction false} RemoveIdIsFilter(l: seq<Achievement>, id: string)
    ensures RemoveId(l, id) == Filter(l, (a: Achievement) => a.id != id)
    decreases |l|
  {
    if |l| > 0 {
      RemoveIdIsFilter(l[1..], id);
    }
  }

  /** `loadAchievements`: the stored list, or empty when absent, unparseable or not a list. */
  function LoadAchievements(st: Store): (r: seq<Achievement>)
    ensures Get(st, AchievementsKey).Some? && Get(st, AchievementsKey).value.AchievementsDoc? ==> r == Get(st, AchievementsKey).value.achievements
    ensures Get(st, AchievementsKey).None? || !Get(st, AchievementsKey).value.AchievementsDoc? ==> r == []
  {
    match Get(st, AchievementsKey)
    case Some(AchievementsDoc(l)) => l
    case _ => []
  }

  /** `saveAchievements`. */
  function SaveAchievements(st: Store, l: seq<Achievement>): (r: Store)
    ensures r.available == st.available
    ensures st.available ==> LoadAchievements(r) == l
    ensures !st.available ==> r == st
    ensures forall k :: k != AchievementsKey ==> Get(r, k) == Get(st, k)
  {
    Set(st, AchievementsKey, AchievementsDoc(l))
  }

  predicate InCatalog(id: string)
  {
    id in CatalogIds
  }

  /**
   * The ceiling of a progress achievement: `None` when the id is not in the
   * catalog or its definition has no (truthy) `maxProgress`.
   */
  function MaxProgressOf(id: string): (r: Option<int>)
    ensures r.Some? ==> InCatalog(id) && r.value > 0 && r == Lookup(id).value.Ceiling()
  {
    var def := CatalogEntry(id);
    if def.None? || def.value.maxProgress.None? || def.value.maxProgress.value == 0 then None
    else def.value.maxProgress
  }

  /** A search stops at the first entry carrying the id. */
  lemma {:induction false} FindByIdAt(l: seq<Achievement>, i: nat, id: string)
    requires i < |l| && l[i].id == id
    requires forall j :: 0 <= j < i ==> l[j].id != id
    ensures FindById(l, id) == Some(l[i])
    decreases i
  {
    if i > 0 {
      FindByIdAt(l[1..], i - 1, id);
    }
  }

  /** The progress ceiling of a catalog achievement is its definition's `maxProgress`. */
  lemma MaxProgressIsCeiling(k: CatalogId)
    ensures MaxProgressOf(k.Id()) == k.Ceiling()
  {
    LookupId(k);
  }

  /** No id occurs twice in the catalog. */
  lemma CatalogIdsDistinct()
    ensures NoDuplicates(CatalogIds)
  {
  }

  /** The lookup by id agrees with searching `ALL_ACHIEVEMENTS` in order. */
  lemma CatalogEntryIsFind(id: string)
    ensures CatalogEntry(id) == FindById(AllAchievements(), id)
  {
    var l := AllAchievements();
    forall j | 0 <= j < |l|
      ensures l[j].id == CatalogIds[j]
    {
      assert Some(l[j]) == CatalogEntry(CatalogIds[j]);
    }
    if id in CatalogIds {
      var i := IndexOf(CatalogIds, id).value;
      FindByIdAt(l, i, id);
    }
  }

  /** `isAchievementUnlocked`: the first stored entry for the id has a set `unlockedAt`. */
  function IsAchievementUnlocked(st: Store, id: string): bool
  {
    st.available &&
    match FindById(LoadAchievements(st), id)
    case Some(a) => Truthy(a.unlockedAt)
    case None => false
  }

  /**
   * `unlockAchievement`. Succeeds exactly when the store is available, the
   * id is in the catalog, and it is not yet unlocked. On success the stored
   * list holds exactly one entry for the id, the catalog definition stamped
   * `now`, and every other entry is unchanged and in its old order; on
   * failure the store is untouched. Other keys never change.
   */
  function UnlockAchievement(st: Store, id: string, now: IsoTime): (r: (Store, bool))
    ensures r.0.available == st.available
    ensures r.1 <==> st.available && InCatalog(id) && !IsAchievementUnlocked(st, id)
    ensures !r.1 ==> r.0 == st
    ensures r.1 ==>
      && IsAchievementUnlocked(r.0, id)
      && CountId(LoadAchievements(r.0), id) == 1
      && FindById(LoadAchievements(r.0), id) == Some(CatalogEntry(id).value.(unlockedAt := Some(now)))
      && RemoveId(LoadAchievements(r.0), id) == RemoveId(LoadAchievements(st), id)
    ensures forall k :: k != AchievementsKey ==> Get(r.0, k) == Get(st, k)
  {
    if !st.available then (st, false)
    else
      var current := LoadAchievements(st);
      var existing := FindById(current, id);
      if existing.Some? && Truthy(existing.value.unlockedAt) then (st, false)
      else
        match CatalogEntry(id)
        case None => (st, false)
        case Some(def) =>
          var unlocked := def.(unlockedAt := Some(now));
          var next := RemoveId(current, id) + [unlocked];
          ReplaceEntry(current, id, unlocked);
          (SaveAchievements(st, next), true)
  }

  /**
   * Replacing every entry of an id by one entry appended at the end leaves
   * that one entry as the only one for the id, and every other id as it was.
   */
  lemma ReplaceEntry(l: seq<Achievement>, id: string, a: Achievement)
    requires a.id == id
    ensures var next := RemoveId(l, id) + [a];
      && CountId(next, id) == 1
      && FindById(next, id) == Some(a)
      && RemoveId(next, id) == RemoveId(l, id)
      && (forall x :: x != id ==> FindById(next, x) == FindById(l, x))
      && (forall x :: x != id ==> CountId(next, x) == CountId(l, x))
  {
    var rest := RemoveId(l, id);
    var next := rest + [a];
    CountIdAppend(rest, [a], id);
    FindByIdAppend(rest, [a], id);
    forall x | x != id
      ensures FindById(next, x) == FindById(l, x)
      ensures CountId(next, x) == CountId(l, x)
    {
      FindByIdAppend(rest, [a], x);
      CountIdAppend(rest, [a], x);
    }
    RemoveIdAppend(rest, [a], id);
    RemoveIdIdempotent(l, id);
  }

  lemma {:induction false} RemoveIdAppend(a: seq<Achievement>, b: seq<Achievement>, id: string)
    ensures RemoveId(a + b, id) == RemoveId(a, id) + RemoveId(b, id)
    decreases |a|
  {
    if |a| > 0 {
      TailOfAppend(a, b);
      RemoveIdAppend(a[1..], b, id);
    } else {
      EmptyAppend(a, b);
    }
  }

  lemma {:induction false} RemoveIdIdempotent(l: seq<Achievement>, id: string)
    ensures RemoveId(RemoveId(l, id), id) == RemoveId(l, id)
    decreases |l|
  {
    if |l| > 0 {
      RemoveIdIdempotent(l[1..], id);
      if l[0].id != id {
        assert RemoveId(l, id)[1..] == RemoveId(l[1..], id);
      }
    }
  }

  /**
   * `updateAchievementProgress`. A no-op on an unavailable store and for an
   * id without a ceiling in the catalog. Otherwise the stored list ends with
   * exactly one entry for the id: the first existing one (or the catalog
   * definition with progress 0) carrying progress `min(value, ceiling)`,
   * stamped `now` when it reaches the ceiling and was not yet unlocked. Every
   * other field of that entry, and an `unlockedAt` that was set or that the
   * ceiling was not reached for, is kept as it was; other entries are
   * unchanged.
   */
  function UpdateAchievementProgress(st: Store, id: string, value: int, now: IsoTime): (r: Store)
    ensures r.available == st.available
    ensures !st.available || MaxProgressOf(id).None? ==> r == st
    ensures st.available && MaxProgressOf(id).Some? ==>
      var m := MaxProgressOf(id).value;
      var before := FindById(LoadAchievements(st), id);
      var base := if before.Some? then before.value else CatalogEntry(id).value.(progress := Some(0));
      var after := FindById(LoadAchievements(r), id);
      && CountId(LoadAchievements(r), id) == 1
      && after.Some?
      && after.value.(progress := base.progress, unlockedAt := base.unlockedAt) == base
      && after.value.progress == Some(if value < m then value else m)
      && after.value.progress.value <= m
      && (value >= m ==> Truthy(after.value.unlockedAt))
      && (value >= m && !Truthy(base.unlockedAt) ==> after.value.unlockedAt == Some(now))
      && (value < m || Truthy(base.unlockedAt) ==> after.value.unlockedAt == base.unlockedAt)
      && RemoveId(LoadAchievements(r), id) == RemoveId(LoadAchievements(st), id)
    ensures forall k :: k != AchievementsKey ==> Get(r, k) == Get(st, k)
  {
    if !st.available || MaxProgressOf(id).None? then st
    else
      var current := LoadAchievements(st);
      var m := MaxProgressOf(id).value;
      var base := match FindById(current, id)
        case Some(a) => a
        case None => CatalogEntry(id).value.(progress := Some(0));
      var p := if value < m then value else m;
      var updated := base.(
        progress := Some(p),
        unlockedAt := if p >= m && !Truthy(base.unlockedAt) then Some(now) else base.unlockedAt);
      ReplaceEntry(current, id, updated);
      SaveAchievements(st, RemoveId(current, id) + [updated])
  }

  /** Unlocking is permanent: an unlock or a progress update never re-locks any achievement. */
  lemma UnlockKeepsUnlocked(st: Store, id: string, now: IsoTime, x: string)
    requires IsAchievementUnlocked(st, x)
    ensures IsAchievementUnlocked(UnlockAchievement(st, id, now).0, x)
  {
    var current := LoadAchievements(st);
    if x != id && UnlockAchievement(st, id, now).1 {
      ReplaceEntry(current, id, CatalogEntry(id).value.(unlockedAt := Some(now)));
    }
  }

  lemma UpdateKeepsUnlocked(st: Store, id: string, value: int, now: IsoTime, x: string)
    requires IsAchievementUnlocked(st, x)
    ensures IsAchievementUnlocked(UpdateAchievementProgress(st, id, value, now), x)
  {
    if x != id && st.available && MaxProgressOf(id).Some? {
      var current := LoadAchievements(st);
      var m := MaxProgressOf(id).value;
      var base := match FindById(current, id)
        case Some(a) => a
        case None => CatalogEntry(id).value.(progress := Some(0));
      var p := if value < m then value else m;
      var updated := base.(
        progress := Some(p),
        unlockedAt := if p >= m && !Truthy(base.unlockedAt) then Some(now) else base.unlockedAt);
      ReplaceEntry(current, id, updated);
    }
  }

  /** At most one stored entry per id. */
  ghost predicate UniqueIds(l: seq<Achievement>)
  {
    forall x :: CountId(l, x) <= 1
  }

  /** A stored entry counts towards its id. */
  lemma {:induction false} CountIdPositive(l: seq<Achievement>, a: Achievement)
    requires a in l
    ensures CountId(l, a.id) >= 1
    decreases |l|
  {
    if l[0] != a {
      assert a in l[1..] by { assert l == [l[0]] + l[1..]; }
      CountIdPositive(l[1..], a);
    }
  }

  /** In a list where the id occurs at most once, the search finds the one entry carrying it. */
  lemma {:induction false} UniqueFind(l: seq<Achievement>, a: Achievement)
    requires a in l && CountId(l, a.id) <= 1
    ensures FindById(l, a.id) == Some(a)
    decreases |l|
  {
    if l[0] != a {
      assert a in l[1..] by { assert l == [l[0]] + l[1..]; }
      if l[0].id == a.id {
        CountIdPositive(l[1..], a);
        assert false;
      } else {
        UniqueFind(l[1..], a);
      }
    }
  }

  /**
   * `isAchievementUnlocked`: an unlocked id has a stored entry with a set
   * `unlockedAt`; when ids are unique (as every write keeps them), that is
   * exactly what being unlocked means.
   */
  lemma UnlockedMeansStamped(st: Store, id: string)
    ensures IsAchievementUnlocked(st, id) ==>
      st.available && exists a :: a in LoadAchievements(st) && a.id == id && Truthy(a.unlockedAt)
    ensures UniqueIds(LoadAchievements(st)) ==>
      (IsAchievementUnlocked(st, id) <==>
         st.available && exists a :: a in LoadAchievements(st) && a.id == id && Truthy(a.unlockedAt))
  {
    var l := LoadAchievements(st);
    if UniqueIds(l) && st.available && exists a :: a in l && a.id == id && Truthy(a.unlockedAt) {
      var a :| a in l && a.id == id && Truthy(a.unlockedAt);
      UniqueFind(l, a);
    }
  }

  /** Unlocking and updating progress keep the stored list free of duplicate ids. */
  lemma UnlockKeepsIdsUnique(st: Store, id: string, now: IsoTime)
    requires UniqueIds(LoadAchievements(st))
    ensures UniqueIds(LoadAchievements(UnlockAchievement(st, id, now).0))
  {
    if UnlockAchievement(st, id, now).1 {
      ReplaceEntry(LoadAchievements(st), id, CatalogEntry(id).value.(unlockedAt := Some(now)));
    }
  }

  lemma UpdateKeepsIdsUnique(st: Store, id: string, value: int, now: IsoTime)
    requires UniqueIds(LoadAchievements(st))
    ensures UniqueIds(LoadAchievements(UpdateAchievementProgress(st, id, value, now)))
  {
  }

  /**
   * `getAllAchievementsWithProgress`: one entry per catalog definition, in
   * catalog order; the stored entry when there is one, else the definition
   * with progress 0. An entry shows as unlocked exactly when the id is.
   */
  function GetAllAchievementsWithProgress(st: Store): (r: seq<Achievement>)
    ensures |r| == |AllAchievements()|
    ensures forall i :: 0 <= i < |r| ==> r[i].id == AllAchievements()[i].id
    ensures forall i :: 0 <= i < |r| ==>
      (Truthy(r[i].unlockedAt) <==> IsAchievementUnlocked(st, AllAchievements()[i].id))
    ensures forall i :: 0 <= i < |r| && FindById(LoadAchievements(st), AllAchievements()[i].id).Some? ==>
      r[i] == FindById(LoadAchievements(st), AllAchievements()[i].id).value
    ensures forall i :: 0 <= i < |r| && FindById(LoadAchievements(st), AllAchievements()[i].id).None? ==>
      r[i] == AllAchievements()[i].(progress := Some(0))
  {
    var saved := LoadAchievements(st);
    seq(|AllAchievements()|, i requires 0 <= i < |AllAchievements()| =>
      match FindById(saved, AllAchievements()[i].id)
      case Some(a) => a
      case None => AllAchievements()[i].(progress := Some(0)))
  }

  /**
   * `getAchievement`: nothing for an id outside the catalog; otherwise the
   * stored entry, or the definition with progress 0 when none is stored.
   */
  function GetAchievement(st: Store, id: string): (r: Option<Achievement>)
    ensures r.Some? <==> InCatalog(id)
    ensures r.Some? ==> r.value.id == id
    ensures r.Some? ==> (Truthy(r.value.unlockedAt) <==> IsAchievementUnlocked(st, id))
    ensures InCatalog(id) && FindById(LoadAchievements(st), id).Some? ==> r == FindById(LoadAchievements(st), id)
    ensures InCatalog(id) && FindById(LoadAchievements(st), id).None? ==>
      r == Some(CatalogEntry(id).value.(progress := Some(0)))
  {
    if !InCatalog(id) then None
    else
      match FindById(LoadAchievements(st), id)
      case Some(a) => Some(a)
      case None => Some(CatalogEntry(id).value.(progress := Some(0)))
  }

  /** The list of all achievements shows, at each position, what a lookup of that id returns. */
  lemma AllAgreesWithGetAchievement(st: Store, i: nat)
    requires i < |AllAchievements()|
    ensures Some(GetAllAchievementsWithProgress(st)[i]) == GetAchievement(st, AllAchievements()[i].id)
  {
    assert Some(AllAchievements()[i]) == CatalogEntry(CatalogIds[i]);
  }

  /**
   * After a progress update of an achievement with a ceiling, a lookup shows
   * the clamped progress, and shows it unlocked exactly when it was unlocked
   * already or the value reached the ceiling.
   */
  lemma UpdateThenGet(st: Store, id: string, value: int, now: IsoTime)
    requires st.available && MaxProgressOf(id).Some?
    ensures var m := MaxProgressOf(id).value;
      var shown := GetAchievement(UpdateAchievementProgress(st, id, value, now), id);
      && shown.Some?
      && shown.value.progress == Some(if value < m then value else m)
      && (Truthy(shown.value.unlockedAt) <==> IsAchievementUnlocked(st, id) || value >= m)
  {
  }
}

=== FILE: bookmarks.dfy ===
/**
 * The bookmark store of lib/story/persistence.ts: one list of bookmarks for
 * both routes, kept under its own key and independent of every session.
 */
module Bookmarks {
  import opened Wrappers
  import opened StoryTypes
  import opened Storage
  import opened Lists

  /** What a caller hands to `addBookmark`: every field except `id` and `createdAt`. */
  datatype BookmarkDraft = BookmarkDraft(
    route: RouteId,
    nodeId: string,
    nodeTitle: Option<string>,
    quote: Option<string>,
    note: Option<string>,
    chapter: int)

  /** The caller-supplied part of a stored bookmark. */
  function DraftOf(b: Bookmark): BookmarkDraft
  {
    BookmarkDraft(b.route, b.nodeId, b.nodeTitle, b.quote, b.note, b.chapter)
  }

  /** `loadBookmarks`: the stored list, or empty when absent, unparseable or not a list. */
  function LoadBookmarks(st: Store): (r: seq<Bookmark>)
    ensures Get(st, BookmarksKey).Some? && Get(st, BookmarksKey).value.BookmarksDoc? ==> r == Get(st, BookmarksKey).value.bookmarks
    ensures Get(st, BookmarksKey).None? || !Get(st, BookmarksKey).value.BookmarksDoc? ==> r == []
  {
    match Get(st, BookmarksKey)
    case Some(BookmarksDoc(l)) => l
    case _ => []
  }

  /** `saveBookmarks`: the list reads back as written and no other key changes. */
  function SaveBookmarks(st: Store, l: seq<Bookmark>): (r: Store)
    ensures r.available == st.available
    ensures st.available ==> LoadBookmarks(r) == l
    ensures !st.available ==> r == st
    ensures forall k :: k != BookmarksKey ==> Get(r, k) == Get(st, k)
  {
    Set(st, BookmarksKey, BookmarksDoc(l))
  }

  /** Whether some bookmark in the list carries `id`. */
  predicate HasId(l: seq<Bookmark>, id: string)
  {
    exists i :: 0 <= i < |l| && l[i].id == id
  }

  /**
   * `addBookmark`. `id` and `createdAt` stand for the generated identifier
   * and the current time. The new bookmark is the draft plus those two
   * fields; it is appended to the stored list without any duplicate check,
   * and it is returned even when there is no store to write to.
   */
  function AddBookmark(st: Store, draft: BookmarkDraft, id: string, createdAt: IsoTime): (r: (Store, Bookmark))
    ensures DraftOf(r.1) == draft && r.1.id == id && r.1.createdAt == createdAt
    ensures r.0.available == st.available
    ensures st.available ==> LoadBookmarks(r.0) == LoadBookmarks(st) + [r.1]
    ensures !st.available ==> r.0 == st
    ensures forall k :: k != BookmarksKey ==> Get(r.0, k) == Get(st, k)
  {
    var b := Bookmark(id, draft.route, draft.nodeId, draft.nodeTitle, draft.quote, draft.note, createdAt, draft.chapter);
    (SaveBookmarks(st, LoadBookmarks(st) + [b]), b)
  }

  /**
   * `removeBookmark`. Exactly the bookmarks carrying `id` disappear: the
   * others stay, in their order, and none with that id is left.
   */
  function RemoveBookmark(st: Store, id: string): (r: Store)
    ensures r.available == st.available
    ensures forall b :: b in LoadBookmarks(r) <==> b in LoadBookmarks(st) && b.id != id
    ensures forall b :: Count(LoadBookmarks(r), b) == if b.id != id then Count(LoadBookmarks(st), b) else 0
    ensures SubsequenceOf(LoadBookmarks(r), LoadBookmarks(st))
    ensures !HasId(LoadBookmarks(r), id)
    ensures !HasId(LoadBookmarks(st), id) ==> LoadBookmarks(r) == LoadBookmarks(st)
    ensures forall k :: k != BookmarksKey ==> Get(r, k) == Get(st, k)
  {
    var l := Filter(LoadBookmarks(st), (b: Bookmark) => b.id != id);
    assert !HasId(l, id) by {
      forall i | 0 <= i < |l|
        ensures l[i].id != id
      {
        assert l[i] in l;
      }
    }
    SaveBookmarks(st, l)
  }

  /** The list with `note` set on every bookmark carrying `id`. */
  function WithNote(l: seq<Bookmark>, id: string, note: string): (r: seq<Bookmark>)
    ensures |r| == |l|
    ensures forall i :: 0 <= i < |l| ==> r[i] == if l[i].id == id then l[i].(note := Some(note)) else l[i]
    decreases |l|
  {
    if |l| == 0 then []
    else [if l[0].id == id then l[0].(note := Some(note)) else l[0]] + WithNote(l[1..], id, note)
  }

  /**
   * `updateBookmarkNote`. The list keeps its length and order; a bookmark
   * carrying `id` gets the new note and keeps every other field; every other
   * bookmark is untouched.
   */
  function UpdateBookmarkNote(st: Store, id: string, note: string): (r: Store)
    ensures r.available == st.available
    ensures st.available ==> |LoadBookmarks(r)| == |LoadBookmarks(st)|
    ensures st.available ==> forall i :: 0 <= i < |LoadBookmarks(st)| ==>
      var before, after := LoadBookmarks(st)[i], LoadBookmarks(r)[i];
      && after.id == before.id
      && DraftOf(after) == (if before.id == id then DraftOf(before).(note := Some(note)) else DraftOf(before))
      && after.createdAt == before.createdAt
    ensures forall k :: k != BookmarksKey ==> Get(r, k) == Get(st, k)
  {
    SaveBookmarks(st, WithNote(LoadBookmarks(st), id, note))
  }

  /** `getRouteBookmarks`: the bookmarks of `route`, in stored order. */
  function GetRouteBookmarks(st: Store, route: RouteId): (r: seq<Bookmark>)
    ensures forall b :: b in r <==> b in LoadBookmarks(st) && b.route == route
    ensures forall b :: Count(r, b) == if b.route == route then Count(LoadBookmarks(st), b) else 0
    ensures SubsequenceOf(r, LoadBookmarks(st))
  {
    Filter(LoadBookmarks(st), (b: Bookmark) => b.route == route)
  }

  /** Whether some bookmark of the list marks `(route, nodeId)`, scanning from the front. */
  function MarksNode(l: seq<Bookmark>, route: RouteId, nodeId: string): bool
    decreases |l|
  {
    |l| > 0 && ((l[0].route == route && l[0].nodeId == nodeId) || MarksNode(l[1..], route, nodeId))
  }

  /** `isNodeBookmarked`: true exactly when some stored bookmark has that route and node. */
  function IsNodeBookmarked(st: Store, route: RouteId, nodeId: string): (r: bool)
    ensures r <==> exists b :: b in LoadBookmarks(st) && b.route == route && b.nodeId == nodeId
  {
    MarksNodeIffExists(LoadBookmarks(st), route, nodeId);
    MarksNode(LoadBookmarks(st), route, nodeId)
  }

  /** The front-to-back scan finds a bookmark exactly when the list holds one. */
  lemma {:induction false} MarksNodeIffExists(l: seq<Bookmark>, route: RouteId, nodeId: string)
    ensures MarksNode(l, route, nodeId) <==> exists b :: b in l && b.route == route && b.nodeId == nodeId
    decreases |l|
  {
    if |l| > 0 {
      MarksNodeIffExists(l[1..], route, nodeId);
      if exists b :: b in l && b.route == route && b.nodeId == nodeId {
        var b :| b in l && b.route == route && b.nodeId == nodeId;
        if b != l[0] {
          assert b in l[1..];
        }
      }
    }
  }

  /** A node is bookmarked on a route exactly when that route's bookmarks include one for it. */
  lemma NodeBookmarkedIffRouteBookmark(st: Store, route: RouteId, nodeId: string)
    ensures IsNodeBookmarked(st, route, nodeId) <==> exists b :: b in GetRouteBookmarks(st, route) && b.nodeId == nodeId
  {
  }

  /** Adding a bookmark marks its node on its route, on an available store. */
  lemma AddMarksNode(st: Store, draft: BookmarkDraft, id: string, createdAt: IsoTime)
    requires st.available
    ensures IsNodeBookmarked(AddBookmark(st, draft, id, createdAt).0, draft.route, draft.nodeId)
  {
    var r := AddBookmark(st, draft, id, createdAt);
    assert r.1 in LoadBookmarks(r.0);
  }

  /** Removing a freshly added bookmark whose id was unused restores the stored list. */
  lemma AddThenRemove(st: Store, draft: BookmarkDraft, id: string, createdAt: IsoTime)
    requires !HasId(LoadBookmarks(st), id)
    ensures LoadBookmarks(RemoveBookmark(AddBookmark(st, draft, id, createdAt).0, id)) == LoadBookmarks(st)
  {
    var l := LoadBookmarks(st);
    var b := AddBookmark(st, draft, id, createdAt).1;
    var keep := (x: Bookmark) => x.id != id;
    if st.available {
      FilterAppend(l, [b], keep);
      assert Filter([b], keep) == [];
      assert Filter(l, keep) == l;
    }
  }

  /** Removing twice is removing once. */
  lemma RemoveIdempotent(st: Store, id: string)
    ensures LoadBookmarks(RemoveBookmark(RemoveBookmark(st, id), id)) == LoadBookmarks(RemoveBookmark(st, id))
  {
  }

  /** A note change is forgotten once the bookmark is removed. */
  lemma RemoveAfterUpdate(st: Store, id: string, note: string)
    ensures LoadBookmarks(RemoveBookmark(UpdateBookmarkNote(st, id, note), id)) == LoadBookmarks(RemoveBookmark(st, id))
  {
    if st.available {
      WithNoteThenFilter(LoadBookmarks(st), id, note);
    }
  }

  /** Setting notes changes nothing that survives removing the same id. */
  lemma {:induction false} WithNoteThenFilter(l: seq<Bookmark>, id: string, note: string)
    ensures Filter(WithNote(l, id, note), (b: Bookmark) => b.id != id) == Filter(l, (b: Bookmark) => b.id != id)
    decreases |l|
  {
    if |l| > 0 {
      WithNoteThenFilter(l[1..], id, note);
      assert WithNote(l, id, note)[1..] == WithNote(l[1..], id, note);
    }
  }

  /** Editing notes never changes which nodes are bookmarked. */
  lemma UpdateKeepsMarks(st: Store, id: string, note: string, route: RouteId, nodeId: string)
    ensures IsNodeBookmarked(UpdateBookmarkNote(st, id, note), route, nodeId) == IsNodeBookmarked(st, route, nodeId)
  {
    if st.available {
      WithNoteKeepsMarks(LoadBookmarks(st), id, note, route, nodeId);
    }
  }

  /** Setting notes leaves every bookmark's route and node as they were. */
  lemma {:induction false} WithNoteKeepsMarks(l: seq<Bookmark>, id: string, note: string, route: RouteId, nodeId: string)
    ensures MarksNode(WithNote(l, id, note), route, nodeId) == MarksNode(l, route, nodeId)
    decreases |l|
  {
    if |l| > 0 {
      WithNoteKeepsMarks(l[1..], id, note, route, nodeId);
      assert WithNote(l, id, note)[1..] == WithNote(l[1..], id, note);
    }
  }
}

=== FILE: choice_resolver.dfy ===
/**
 * The choice resolver of components/story/StoryEngine.tsx: applying a
 * choice's effects, moving to its target node, and filtering a node's
 * choices by their conditions. Everything here is a pure function of the
 * state it is given.
 */
module ChoiceResolver {
  import opened Wrappers
  import opened StoryTypes
  import opened Lists

  /** `Math.max(0, Math.min(100, v))`. */
  function Clamp(v: int): (r: int)
    ensures 0 <= r <= 100
    ensures 0 <= v <= 100 ==> r == v
    ensures v < 0 ==> r == 0
    ensures v > 100 ==> r == 100
  {
    if v < 0 then 0 else if v > 100 then 100 else v
  }

  /** Stats and flags, the two parts of a state that effects change. */
  datatype Traits = Traits(stats: Stats, flags: map<string, bool>)

  /**
   * One effect: a stat effect adds its delta to its axis and clamps the sum
   * into [0, 100]; a flag effect overwrites its flag. Nothing else changes.
   */
  function ApplyEffect(t: Traits, e: Effect): (r: Traits)
    ensures e.StatEffect? ==>
      && 0 <= r.stats.Get(e.statKey) <= 100
      && r.stats.Get(e.statKey) == Clamp(t.stats.Get(e.statKey) + e.delta)
      && (forall k: StatKey :: k != e.statKey ==> r.stats.Get(k) == t.stats.Get(k))
      && r.flags == t.flags
    ensures e.FlagEffect? ==>
      && r.stats == t.stats
      && e.flagKey in r.flags && r.flags[e.flagKey] == e.value
      && r.flags.Keys == t.flags.Keys + {e.flagKey}
      && (forall k :: k in t.flags && k != e.flagKey ==> r.flags[k] == t.flags[k])
  {
    match e
    case StatEffect(k, delta) => t.(stats := t.stats.Set(k, Clamp(t.stats.Get(k) + delta)))
    case FlagEffect(k, value) => t.(flags := t.flags[k := value])
  }

  /** `choice.effects.forEach(...)`: the effects in authored order, each seeing the previous one's result. */
  function ApplyEffects(t: Traits, effects: seq<Effect>): Traits
    decreases |effects|
  {
    if |effects| == 0 then t else ApplyEffects(ApplyEffect(t, effects[0]), effects[1..])
  }

  /** Whether some effect in the list is a stat effect on axis `k`. */
  predicate TouchesStat(effects: seq<Effect>, k: StatKey)
  {
    exists i :: 0 <= i < |effects| && effects[i].StatEffect? && effects[i].statKey == k
  }

  /**
   * The value the last flag effect on `key` writes, if any: a reference
   * definition read from the back of the list.
   */
  function LastFlagWrite(effects: seq<Effect>, key: string): Option<bool>
    decreases |effects|
  {
    if |effects| == 0 then None
    else
      var e := effects[|effects| - 1];
      if e.FlagEffect? && e.flagKey == key then Some(e.value)
      else LastFlagWrite(effects[..|effects| - 1], key)
  }

  /** A flag's value as a lookup: absent flags read as `None` (JavaScript's `undefined`). */
  function FlagValue(flags: map<string, bool>, key: string): Option<bool>
  {
    if key in flags then Some(flags[key]) else None
  }

  /** Applying `a + b` is applying `a` and then `b`: later effects see earlier, clamped results. */
  lemma {:induction false} ApplyEffectsSplit(t: Traits, a: seq<Effect>, b: seq<Effect>)
    ensures ApplyEffects(t, a + b) == ApplyEffects(ApplyEffects(t, a), b)
    decreases |a|
  {
    if |a| == 0 {
      assert a + b == b;
    } else {
      assert (a + b)[1..] == a[1..] + b;
      ApplyEffectsSplit(ApplyEffect(t, a[0]), a[1..], b);
    }
  }

  /**
   * Axes no effect names keep their value; every axis some effect names
   * ends in [0, 100], whatever its prior value or the deltas. So a state
   * whose axes are in range stays in range.
   */
  lemma {:induction false} ApplyEffectsStats(t: Traits, effects: seq<Effect>)
    ensures forall k: StatKey :: !TouchesStat(effects, k) ==>
      ApplyEffects(t, effects).stats.Get(k) == t.stats.Get(k)
    ensures forall k: StatKey :: TouchesStat(effects, k) ==>
      0 <= ApplyEffects(t, effects).stats.Get(k) <= 100
    ensures t.stats.InRange() ==> ApplyEffects(t, effects).stats.InRange()
    decreases |effects|
  {
    if |effects| > 0 {
      var t1 := ApplyEffect(t, effects[0]);
      ApplyEffectsStats(t1, effects[1..]);
      forall k: StatKey
        ensures TouchesStat(effects, k) <==>
          (TouchesStat(effects[1..], k) || (effects[0].StatEffect? && effects[0].statKey == k))
      {
        if TouchesStat(effects, k) {
          var i :| 0 <= i < |effects| && effects[i].StatEffect? && effects[i].statKey == k;
          if i > 0 {
            assert effects[1..][i - 1] == effects[i];
          }
        }
        if TouchesStat(effects[1..], k) {
          var i :| 0 <= i < |effects[1..]| && effects[1..][i].StatEffect? && effects[1..][i].statKey == k;
          assert effects[i + 1] == effects[1..][i];
        }
      }
    }
  }

  /**
   * After the effects, a flag holds the value of the last flag effect on it,
   * or its prior value when no flag effect names it.
   */
  lemma {:induction false} ApplyEffectsFlags(t: Traits, effects: seq<Effect>, key: string)
    ensures FlagValue(ApplyEffects(t, effects).flags, key)
      == if LastFlagWrite(effects, key).Some? then LastFlagWrite(effects, key) else FlagValue(t.flags, key)
    decreases |effects|
  {
    if |effects| > 0 {
      var init := effects[..|effects| - 1];
      var last := effects[|effects| - 1];
      assert effects == init + [last];
      ApplyEffectsSplit(t, init, [last]);
      ApplyEffectsFlags(t, init, key);
      assert ApplyEffects(ApplyEffects(t, init), [last]) == ApplyEffect(ApplyEffects(t, init), last);
    }
  }

  /** Index `i` holds the first node whose id is `id`. */
  predicate FirstWithId(nodes: seq<StoryNode>, i: int, id: string)
  {
    0 <= i < |nodes| && nodes[i].id == id && forall j :: 0 <= j < i ==> nodes[j].id != id
  }

  /** `nodes.find(n => n.id === id)`: the first node with that id. */
  function FindNode(nodes: seq<StoryNode>, id: string): (r: Option<StoryNode>)
    ensures r.None? <==> forall i :: 0 <= i < |nodes| ==> nodes[i].id != id
    ensures r.Some? ==> r.value.id == id && exists i :: FirstWithId(nodes, i, id) && nodes[i] == r.value
    decreases |nodes|
  {
    if |nodes| == 0 then None
    else if nodes[0].id == id then Some(nodes[0])
    else
      var r := FindNode(nodes[1..], id);
      if r.Some? then
        var i :| FirstWithId(nodes[1..], i, id) && nodes[1..][i] == r.value;
        assert FirstWithId(nodes, i + 1, id);
        r
      else r
  }

  /** `seenNodes.includes(id) ? seenNodes : [...seenNodes, id]`. */
  function AddSeen(seen: seq<string>, id: string): (r: seq<string>)
    ensures id in r
    ensures forall x :: x in r <==> x in seen || x == id
    ensures |seen| <= |r| <= |seen| + 1 && r[..|seen|] == seen
    ensures id in seen ==> r == seen
    ensures NoDuplicates(seen) ==> NoDuplicates(r)
  {
    if id in seen then seen else seen + [id]
  }

  /**
   * The state update of `handleChoice`: apply the effects, move to
   * `choice.nextId`, record it as seen, and take the target node's chapter
   * when the target resolves. Route, history and start time are untouched.
   */
  function ApplyChoice(state: StoryState, choice: Choice, nodes: seq<StoryNode>): (r: StoryState)
    ensures r.currentNodeId == choice.nextId
    ensures choice.nextId in r.seenNodes
    ensures forall x :: x in r.seenNodes <==> x in state.seenNodes || x == choice.nextId
    ensures |state.seenNodes| <= |r.seenNodes| <= |state.seenNodes| + 1
    ensures r.seenNodes[..|state.seenNodes|] == state.seenNodes
    ensures NoDuplicates(state.seenNodes) ==> NoDuplicates(r.seenNodes)
    ensures FindNode(nodes, choice.nextId).Some? ==> r.currentChapter == FindNode(nodes, choice.nextId).value.chapter
    ensures FindNode(nodes, choice.nextId).None? ==> r.currentChapter == state.currentChapter
    ensures Traits(r.stats, r.flags) == ApplyEffects(Traits(state.stats, state.flags), choice.effects)
    ensures r.routeId == state.routeId
    ensures r.choiceHistory == state.choiceHistory
    ensures r.startTime == state.startTime
  {
    var t := ApplyEffects(Traits(state.stats, state.flags), choice.effects);
    var chapter := match FindNode(nodes, choice.nextId)
      case Some(n) => n.chapter
      case None => state.currentChapter;
    state.(
      stats := t.stats,
      flags := t.flags,
      currentNodeId := choice.nextId,
      seenNodes := AddSeen(state.seenNodes, choice.nextId),
      currentChapter := chapter)
  }

  /** A transition keeps every axis in [0, 100] when it starts there. */
  lemma ApplyChoiceKeepsStatsInRange(state: StoryState, choice: Choice, nodes: seq<StoryNode>)
    requires state.stats.InRange()
    ensures ApplyChoice(state, choice, nodes).stats.InRange()
  {
    ApplyEffectsStats(Traits(state.stats, state.flags), choice.effects);
  }

  /**
   * The ending the transition registers: the target node's key when the
   * target resolves, is an ending, and has a non-empty `endingKey`.
   */
  function EndingReached(choice: Choice, nodes: seq<StoryNode>): (r: Option<string>)
    ensures r.Some? ==> r.value != ""
    ensures r.Some? ==>
      exists i :: FirstWithId(nodes, i, choice.nextId) && nodes[i].isEnding && nodes[i].endingKey == r
    ensures r.None? ==>
      (forall i :: FirstWithId(nodes, i, choice.nextId) ==> !nodes[i].isEnding || !Truthy(nodes[i].endingKey))
  {
    match FindNode(nodes, choice.nextId)
    case Some(n) => if n.isEnding && Truthy(n.endingKey) then n.endingKey else None
    case None => None
  }

  /**
   * The visibility test of one condition. A flag condition needs the flag's
   * value to be exactly `value` (so an absent flag matches only an absent
   * value); a stat condition on one of the three axes needs the axis within
   * its optional inclusive bounds; a stat condition on any other key and a
   * condition of any other type pass.
   */
  predicate ConditionHolds(c: Condition, state: StoryState)
  {
    match c.kind
    case FlagCondition =>
      if c.key in state.flags then c.value == BoolValue(state.flags[c.key]) else c.value == NoValue
    case StatCondition =>
      (match StatKeyOf(c.key)
       case Some(k) =>
         var v := state.stats.Get(k);
         if c.min.Some? && v < c.min.value then false
         else if c.max.Some? && v > c.max.value then false
         else true
       case None => true)
    case OtherCondition(_) => true
  }

  /** An unconditioned choice is always visible. */
  predicate IsVisible(choice: Choice, state: StoryState)
  {
    choice.condition.None? || ConditionHolds(choice.condition.value, state)
  }

  /**
   * `availableChoices`: the visible choices, in authored order. A choice is
   * kept exactly when it is visible.
   */
  function AvailableChoices(choices: seq<Choice>, state: StoryState): (r: seq<Choice>)
    ensures forall c :: c in r <==> c in choices && IsVisible(c, state)
    ensures forall c :: Count(r, c) == if IsVisible(c, state) then Count(choices, c) else 0
    ensures SubsequenceOf(r, choices)
    ensures |r| <= |choices|
  {
    Filter(choices, (c: Choice) => IsVisible(c, state))
  }

  /**
   * A stat condition on an axis is met exactly when the axis lies within
   * the bounds that are present: raising or lowering the axis into the
   * range shows the choice, moving it out hides it.
   */
  lemma StatConditionIsInclusiveRange(c: Condition, state: StoryState, k: StatKey)
    requires c.kind == StatCondition && c.key == k.Name()
    ensures ConditionHolds(c, state) <==>
      (c.min.None? || c.min.value <= state.stats.Get(k)) && (c.max.None? || state.stats.Get(k) <= c.max.value)
  {
    match k
    case PainterAlignment =>
    case WriterAlignment =>
    case Balance =>
  }

  /**
   * The cases the filter lets through: a choice without a condition, a
   * condition of an unknown type and a stat condition on a key that is no
   * axis always pass; a flag condition without a value matches exactly an
   * absent flag.
   */
  lemma ConditionFallbacks(choice: Choice, c: Condition, state: StoryState)
    ensures choice.condition.None? ==> IsVisible(choice, state)
    ensures c.kind.OtherCondition? ==> ConditionHolds(c, state)
    ensures c.kind == StatCondition && StatKeyOf(c.key).None? ==> ConditionHolds(c, state)
    ensures c.kind == FlagCondition && c.value == NoValue ==> (ConditionHolds(c, state) <==> c.key !in state.flags)
  {
  }

  /** A flag condition with a boolean value is met exactly when the flag is set to that value. */
  lemma FlagConditionIsEquality(c: Condition, state: StoryState, b: bool)
    requires c.kind == FlagCondition && c.value == BoolValue(b)
    ensures ConditionHolds(c, state) <==> c.key in state.flags && state.flags[c.key] == b
  {
  }
}

=== FILE: endings.dfy ===
/**
 * The ending registry of lib/story/persistence.ts: an append-only list of
 * `(route, endingKey, unlockedAt)` records that outlives every playthrough.
 */
module Endings {
  import opened Wrappers
  import opened StoryTypes
  import opened Storage
  import opened Lists

  /** `loadUnlockedEndings`: the stored list, or empty when absent, unparseable or not a list. */
  function LoadUnlockedEndings(st: Store): (r: seq<EndingUnlock>)
    ensures Get(st, EndingsKey).Some? && Get(st, EndingsKey).value.EndingsDoc? ==> r == Get(st, EndingsKey).value.endings
    ensures Get(st, EndingsKey).None? || !Get(st, EndingsKey).value.EndingsDoc? ==> r == []
  {
    match Get(st, EndingsKey)
    case Some(EndingsDoc(l)) => l
    case _ => []
  }

  /** `saveUnlockedEndings`. */
  function SaveUnlockedEndings(st: Store, endings: seq<EndingUnlock>): (r: Store)
    ensures st.available ==> LoadUnlockedEndings(r) == endings
    ensures !st.available ==> r == st
    ensures forall k :: k != EndingsKey ==> Get(r, k) == Get(st, k)
  {
    Set(st, EndingsKey, EndingsDoc(endings))
  }

  /** Whether the list has a record for `(route, key)`. */
  predicate HasEnding(l: seq<EndingUnlock>, route: RouteId, key: string)
  {
    exists i :: 0 <= i < |l| && l[i].route == route && l[i].endingKey == key
  }

  /** The number of records for `(route, key)`. */
  function CountEnding(l: seq<EndingUnlock>, route: RouteId, key: string): (n: nat)
    ensures n <= |l|
    decreases |l|
  {
    if |l| == 0 then 0
    else
      var last := l[|l| - 1];
      CountEnding(l[..|l| - 1], route, key) + (if last.route == route && last.endingKey == key then 1 else 0)
  }

  /** A pair is present exactly when it is counted at least once. */
  lemma {:induction false} CountEndingPositive(l: seq<EndingUnlock>, route: RouteId, key: string)
    ensures CountEnding(l, route, key) > 0 <==> HasEnding(l, route, key)
    decreases |l|
  {
    if |l| > 0 {
      var init := l[..|l| - 1];
      CountEndingPositive(init, route, key);
      if HasEnding(l, route, key) {
        var i :| 0 <= i < |l| && l[i].route == route && l[i].endingKey == key;
        if i < |l| - 1 {
          assert init[i] == l[i];
        }
      }
      if HasEnding(init, route, key) {
        var i :| 0 <= i < |init| && init[i].route == route && init[i].endingKey == key;
        assert l[i] == init[i];
      }
    }
  }

  /**
   * `unlockEnding`. On an unavailable store, or when `(route, key)` is
   * already recorded, nothing is written; otherwise one record stamped `now`
   * is appended. Afterwards the ending is unlocked, a pair that was recorded
   * keeps all its records (and their timestamps), a new pair is recorded
   * exactly once, and no other key of the store changes.
   */
  function UnlockEnding(st: Store, route: RouteId, key: string, now: IsoTime): (r: Store)
    ensures !st.available ==> r == st
    ensures st.available ==> IsEndingUnlocked(r, route, key)
    ensures HasEnding(LoadUnlockedEndings(st), route, key) ==> r == st
    ensures st.available && !HasEnding(LoadUnlockedEndings(st), route, key) ==>
      LoadUnlockedEndings(r) == LoadUnlockedEndings(st) + [EndingUnlock(route, key, now)]
    ensures st.available ==>
      CountEnding(LoadUnlockedEndings(r), route, key)
      == if HasEnding(LoadUnlockedEndings(st), route, key) then CountEnding(LoadUnlockedEndings(st), route, key) else 1
    ensures forall k :: k != EndingsKey ==> Get(r, k) == Get(st, k)
  {
    if !st.available then st
    else
      var current := LoadUnlockedEndings(st);
      if HasEnding(current, route, key) then st
      else
        var next := current + [EndingUnlock(route, key, now)];
        CountEndingPositive(current, route, key);
        assert next[..|next| - 1] == current;
        assert next[|current|] == EndingUnlock(route, key, now);
        SaveUnlockedEndings(st, next)
  }

  /** `isEndingUnlocked`: some stored record carries the route and the ending key. */
  function IsEndingUnlocked(st: Store, route: RouteId, key: string): (r: bool)
    ensures r <==> st.available && exists e :: e in LoadUnlockedEndings(st) && e.route == route && e.endingKey == key
  {
    st.available && HasEnding(LoadUnlockedEndings(st), route, key)
  }

  /** `getRouteUnlockedEndings`: the records of one route, in stored order. */
  function GetRouteUnlockedEndings(st: Store, route: RouteId): (r: seq<EndingUnlock>)
    ensures forall e :: e in r <==> e in LoadUnlockedEndings(st) && e.route == route
    ensures forall e :: Count(r, e) == if e.route == route then Count(LoadUnlockedEndings(st), e) else 0
    ensures SubsequenceOf(r, LoadUnlockedEndings(st))
    ensures |r| <= |LoadUnlockedEndings(st)|
  {
    RouteFilter(LoadUnlockedEndings(st), route)
  }

  /**
   * The records of `route`, in registry order: each record of the route
   * with all its copies, and no record of the other route.
   */
  function RouteFilter(l: seq<EndingUnlock>, route: RouteId): (r: seq<EndingUnlock>)
    ensures forall e :: e in r <==> e in l && e.route == route
    ensures forall e :: Count(r, e) == if e.route == route then Count(l, e) else 0
    ensures SubsequenceOf(r, l)
    ensures |r| <= |l|
  {
    Filter(l, (e: EndingUnlock) => e.route == route)
  }

  /** How many records of `l` belong to `route`, counted one by one. */
  function RouteCount(l: seq<EndingUnlock>, route: RouteId): nat
    decreases |l|
  {
    if |l| == 0 then 0 else (if l[0].route == route then 1 else 0) + RouteCount(l[1..], route)
  }

  /** Counting a route's records one by one gives the length of its filtered list. */
  lemma {:induction false} RouteCountIsLength(l: seq<EndingUnlock>, route: RouteId)
    ensures RouteCount(l, route) == |RouteFilter(l, route)|
    decreases |l|
  {
    if |l| > 0 {
      RouteCountIsLength(l[1..], route);
    }
  }

  /** `getUnlockedEndingsCount`: the number of records of both routes together. */
  function GetUnlockedEndingsCount(st: Store): (n: nat)
    ensures n == |RouteFilter(LoadUnlockedEndings(st), Verso)| + |RouteFilter(LoadUnlockedEndings(st), Maelle)|
  {
    RouteFiltersPartition(LoadUnlockedEndings(st));
    |LoadUnlockedEndings(st)|
  }

  /** Every record belongs to exactly one of the two routes. */
  lemma RouteFiltersPartition(l: seq<EndingUnlock>)
    ensures |RouteFilter(l, Verso)| + |RouteFilter(l, Maelle)| == |l|
  {
    FilterPartition(l, (e: EndingUnlock) => e.route == Verso, (e: EndingUnlock) => e.route == Maelle);
  }

  /** `clearAllEndings`: the registry reads as empty and no other key changes. */
  function ClearAllEndings(st: Store): (r: Store)
    ensures LoadUnlockedEndings(r) == []
    ensures forall k :: k != EndingsKey ==> Get(r, k) == Get(st, k)
  {
    Remove(st, EndingsKey)
  }

  /** A second unlock of the same ending changes nothing, whatever its timestamp. */
  lemma UnlockEndingIdempotent(st: Store, route: RouteId, key: string, t1: IsoTime, t2: IsoTime)
    ensures UnlockEnding(UnlockEnding(st, route, key, t1), route, key, t2) == UnlockEnding(st, route, key, t1)
  {
    if st.available {
      assert IsEndingUnlocked(UnlockEnding(st, route, key, t1), route, key);
    }
  }

  /** A registry without duplicate pairs keeps that property under `UnlockEnding`. */
  lemma UnlockEndingKeepsPairsUnique(st: Store, route: RouteId, key: string, now: IsoTime)
    requires forall r: RouteId, k :: CountEnding(LoadUnlockedEndings(st), r, k) <= 1
    ensures forall r: RouteId, k :: CountEnding(LoadUnlockedEndings(UnlockEnding(st, route, key, now)), r, k) <= 1
  {
    if st.available && !HasEnding(LoadUnlockedEndings(st), route, key) {
      var before := LoadUnlockedEndings(st);
      var after := LoadUnlockedEndings(UnlockEnding(st, route, key, now));
      forall r: RouteId, k: string
        ensures CountEnding(after, r, k) <= 1
      {
        assert after[..|after| - 1] == before;
      }
    }
  }
}

=== FILE: lists.dfy ===
/**
 * Order-preserving list filtering, shared by every store that keeps a list
 * of records and removes or selects some of them (`Array.prototype.filter`).
 */
module Lists {
  /** `a` is an order-preserving subsequence of `b`. */
  predicate SubsequenceOf<T(==)>(a: seq<T>, b: seq<T>)
    decreases |b|
  {
    if |a| == 0 then true
    else if |b| == 0 then false
    else if a[0] == b[0] then SubsequenceOf(a[1..], b[1..])
    else SubsequenceOf(a, b[1..])
  }

  /** How many times `x` occurs in `l`. */
  function Count<T(==)>(l: seq<T>, x: T): nat
    decreases |l|
  {
    if |l| == 0 then 0 else (if l[0] == x then 1 else 0) + Count(l[1..], x)
  }

  /** Dropping the head of `[a] + l` gives `l` back. */
  lemma ConsTail<T>(a: T, l: seq<T>)
    ensures ([a] + l)[0] == a && ([a] + l)[1..] == l
  {
  }

  /** Every list is a subsequence of itself. */
  lemma {:induction false} SubsequenceOfSelf<T>(a: seq<T>)
    ensures SubsequenceOf(a, a)
    decreases |a|
  {
    if |a| > 0 {
      SubsequenceOfSelf(a[1..]);
    }
  }

  /**
   * The elements of `l` that `keep` accepts, in their original order: an
   * element is in the result exactly when it is in `l` and accepted, an
   * accepted element keeps every one of its copies and a rejected one keeps
   * none, and a list whose elements are all accepted comes back unchanged.
   */
  function Filter<T(!new)>(l: seq<T>, keep: T -> bool): (r: seq<T>)
    ensures forall x :: x in r <==> x in l && keep(x)
    ensures forall x :: Count(r, x) == if keep(x) then Count(l, x) else 0
    ensures SubsequenceOf(r, l)
    ensures |r| <= |l|
    ensures (forall i :: 0 <= i < |l| ==> keep(l[i])) ==> r == l
    decreases |l|
  {
    if |l| == 0 then []
    else
      var rest := Filter(l[1..], keep);
      if keep(l[0]) then ConsTail(l[0], rest); [l[0]] + rest else rest
  }

  /**
   * A test and its negation split a list: the two filtered lists together
   * are as long as the list.
   */
  lemma {:induction false} FilterPartition<T(!new)>(l: seq<T>, keep: T -> bool, drop: T -> bool)
    requires forall x :: drop(x) == !keep(x)
    ensures |Filter(l, keep)| + |Filter(l, drop)| == |l|
    decreases |l|
  {
    if |l| > 0 {
      FilterPartition(l[1..], keep, drop);
    }
  }

  /** Filtering keeps the accepted elements of a concatenation in place. */
  lemma {:induction false} FilterAppend<T(!new)>(a: seq<T>, b: seq<T>, keep: T -> bool)
    ensures Filter(a + b, keep) == Filter(a, keep) + Filter(b, keep)
    decreases |a|
  {
    if |a| == 0 {
      assert a + b == b;
    } else {
      assert (a + b)[1..] == a[1..] + b;
      FilterAppend(a[1..], b, keep);
    }
  }

  /** Filtering twice with the same test is filtering once. */
  lemma {:induction false} FilterIdempotent<T(!new)>(l: seq<T>, keep: T -> bool)
    ensures Filter(Filter(l, keep), keep) == Filter(l, keep)
  {
    var r := Filter(l, keep);
    forall i | 0 <= i < |r|
      ensures keep(r[i])
    {
      assert r[i] in r;
    }
  }

  /** Appending to the empty list gives the other list. */
  lemma EmptyAppend<T>(a: seq<T>, b: seq<T>)
    requires a == []
    ensures a + b == b
  {
  }

  /** Concatenation is associative. */
  lemma ConcatAssoc<T>(a: seq<T>, b: seq<T>, c: seq<T>)
    ensures a + (b + c) == (a + b) + c
  {
  }

  /** Dropping the head shifts every later index down by one. */
  lemma TailIndex<T>(s: seq<T>, i: nat)
    requires 0 < i < |s|
    ensures s[1..][i - 1] == s[i]
  {
  }

  /** A concatenation with a non-empty front has that front's head, and its tail is the front's tail followed by the back. */
  lemma TailOfAppend<T>(a: seq<T>, b: seq<T>)
    requires a != []
    ensures (a + b)[0] == a[0] && (a + b)[1..] == a[1..] + b
  {
  }

  /** Each part of a concatenation is the slice of the whole at its position. */
  lemma SliceOfConcat<T>(a: seq<T>, b: seq<T>)
    ensures (a + b)[..|a|] == a && (a + b)[|a|..] == b && (a + b)[|a|..|a| + |b|] == b
  {
  }

  /** A list is its first `i` elements followed by the rest. */
  lemma TakeDrop<T>(s: seq<T>, i: nat)
    requires i <= |s|
    ensures s[..i] + s[i..] == s && (i < |s| ==> s[i..][0] == s[i])
  {
  }
}

=== FILE: session.dfy ===
/**
 * The session state manager of lib/story/persistence.ts: the initial state
 * of a route, and loading, saving, clearing and probing the route's saved
 * blob. Loading never fails: every unusable blob falls back to the initial
 * state.
 */
module Session {
  import opened Wrappers
  import opened StoryTypes
  import opened Storage

  /**
   * `getInitialState`; `nowMs` is the `Date.now()` reading taken for
   * `startTime`. The initial state is a well-formed start of play: it stands
   * on its start node, has seen exactly that node, has all axes at the 0
   * baseline (so in range), no flags, no history, and starts at `nowMs`.
   */
  function InitialState(routeId: RouteId, startNodeId: string, nowMs: int): (s: StoryState)
    ensures s.routeId == routeId
    ensures s.currentNodeId == startNodeId && s.seenNodes == [startNodeId]
    ensures NoDuplicates(s.seenNodes)
    ensures s.stats.InRange() && forall k: StatKey :: s.stats.Get(k) == 0
    ensures |s.flags| == 0 && |s.choiceHistory| == 0
    ensures s.currentChapter == 1
    ensures s.startTime == Some(nowMs)
  {
    StoryState(
      routeId := routeId,
      currentNodeId := startNodeId,
      stats := Stats(0, 0, 0),
      flags := map[],
      seenNodes := [startNodeId],
      currentChapter := 1,
      choiceHistory := [],
      startTime := Some(nowMs))
  }

  /** `JSON.stringify` of a state, seen as the object `JSON.parse` gives back. */
  function Encode(s: StoryState): RawState
  {
    RawState(
      routeId := Some(s.routeId.Name()),
      currentNodeId := Some(s.currentNodeId),
      stats := Some(RawStats(
        Some(s.stats.painterAlignment),
        Some(s.stats.writerAlignment),
        Some(s.stats.balance))),
      flags := Some(s.flags),
      seenNodes := Some(s.seenNodes),
      currentChapter := s.currentChapter,
      choiceHistory := Some(s.choiceHistory),
      startTime := s.startTime)
  }

  /**
   * The loader's structural check: the route matches, `currentNodeId` is a
   * non-empty string, the three stats are numbers, `flags` is present and
   * `seenNodes` is a list.
   */
  predicate PassesShapeCheck(raw: RawState, routeId: RouteId)
  {
    && raw.routeId == Some(routeId.Name())
    && raw.currentNodeId.Some? && raw.currentNodeId.value != ""
    && raw.stats.Some?
    && raw.stats.value.painterAlignment.Some?
    && raw.stats.value.writerAlignment.Some?
    && raw.stats.value.balance.Some?
    && raw.flags.Some?
    && raw.seenNodes.Some?
  }

  /** The saved blob of `routeId`, when there is one and it passes the check. */
  function ValidBlob(st: Store, routeId: RouteId): Option<RawState>
  {
    match Get(st, RouteKey(routeId))
    case Some(SessionDoc(raw)) => if PassesShapeCheck(raw, routeId) then Some(raw) else None
    case _ => None
  }

  /**
   * A checked blob as a state, defaulting the fields added in later versions:
   * a missing history becomes empty and a missing or zero `startTime`
   * becomes `nowMs`.
   */
  function Revive(raw: RawState, routeId: RouteId, nowMs: int): StoryState
    requires PassesShapeCheck(raw, routeId)
  {
    StoryState(
      routeId := routeId,
      currentNodeId := raw.currentNodeId.value,
      stats := Stats(
        raw.stats.value.painterAlignment.value,
        raw.stats.value.writerAlignment.value,
        raw.stats.value.balance.value),
      flags := raw.flags.value,
      seenNodes := raw.seenNodes.value,
      currentChapter := raw.currentChapter,
      choiceHistory := raw.choiceHistory.GetOr([]),
      startTime := if raw.startTime.Some? && raw.startTime.value != 0 then raw.startTime else Some(nowMs))
  }

  /**
   * `loadStoryState`. Returns the initial state when the store is
   * unavailable, the key is missing, the blob does not parse, or the blob
   * fails the shape check; otherwise the blob's own fields, with later-added
   * fields defaulted. The result always belongs to `routeId` and always has
   * a start time.
   */
  function LoadStoryState(st: Store, routeId: RouteId, startNodeId: string, nowMs: int): (r: StoryState)
    ensures r.routeId == routeId
    ensures r.startTime.Some?
    ensures ValidBlob(st, routeId).None? ==> r == InitialState(routeId, startNodeId, nowMs)
    ensures ValidBlob(st, routeId).Some? ==>
      var raw := ValidBlob(st, routeId).value;
      && Some(r.currentNodeId) == raw.currentNodeId
      && r.currentNodeId != ""
      && Some(r.flags) == raw.flags
      && Some(r.seenNodes) == raw.seenNodes
      && Some(RawStats(Some(r.stats.painterAlignment), Some(r.stats.writerAlignment), Some(r.stats.balance))) == raw.stats
      && r.currentChapter == raw.currentChapter
      && (raw.choiceHistory.Some? ==> Some(r.choiceHistory) == raw.choiceHistory)
      && (raw.choiceHistory.None? ==> r.choiceHistory == [])
      && (raw.startTime.Some? && raw.startTime.value != 0 ==> r.startTime == raw.startTime)
      && (raw.startTime.None? || raw.startTime.value == 0 ==> r.startTime == Some(nowMs))
  {
    if !st.available then
      InitialState(routeId, startNodeId, nowMs)
    else
      match Get(st, RouteKey(routeId))
      case None => InitialState(routeId, startNodeId, nowMs)
      case Some(SessionDoc(raw)) =>
        if PassesShapeCheck(raw, routeId) then Revive(raw, routeId, nowMs)
        else InitialState(routeId, startNodeId, nowMs)
      case Some(_) => InitialState(routeId, startNodeId, nowMs)
  }

  /** `saveStoryState`: writes the route's blob and nothing else. */
  function SaveStoryState(st: Store, s: StoryState): (r: Store)
    ensures r.available == st.available
    ensures st.available ==> Get(r, RouteKey(s.routeId)) == Some(SessionDoc(Encode(s)))
    ensures forall k :: k != RouteKey(s.routeId) ==> Get(r, k) == Get(st, k)
  {
    Set(st, RouteKey(s.routeId), SessionDoc(Encode(s)))
  }

  /** `clearStoryState`: removes the route's blob and nothing else. */
  function ClearStoryState(st: Store, routeId: RouteId): (r: Store)
    ensures r.available == st.available
    ensures forall k :: k != RouteKey(routeId) ==> Get(r, k) == Get(st, k)
  {
    Remove(st, RouteKey(routeId))
  }

  /** `hasSavedProgress`: whether the route's key holds anything at all, even a corrupt blob. */
  function HasSavedProgress(st: Store, routeId: RouteId): (r: bool)
    ensures r <==> st.available && RouteKey(routeId) in st.data
  {
    Get(st, RouteKey(routeId)).Some?
  }

  /**
   * Saving then loading gives the saved state back, whatever start node the
   * loader is handed, provided the state passes the shape check and carries
   * a non-zero start time; it also counts as saved progress.
   */
  lemma SaveLoadRoundTrip(st: Store, s: StoryState, anyStartNodeId: string, nowMs: int)
    requires st.available
    requires s.currentNodeId != ""
    requires s.startTime.Some? && s.startTime.value != 0
    ensures LoadStoryState(SaveStoryState(st, s), s.routeId, anyStartNodeId, nowMs) == s
    ensures HasSavedProgress(SaveStoryState(st, s), s.routeId)
  {
  }

  /**
   * A state whose start time is missing or zero comes back with `nowMs`
   * as its start time and is otherwise unchanged.
   */
  lemma SaveLoadDefaultsStartTime(st: Store, s: StoryState, anyStartNodeId: string, nowMs: int)
    requires st.available
    requires s.currentNodeId != ""
    requires s.startTime.None? || s.startTime.value == 0
    ensures LoadStoryState(SaveStoryState(st, s), s.routeId, anyStartNodeId, nowMs) == s.(startTime := Some(nowMs))
  {
  }

  /** An empty `currentNodeId` fails the shape check, so the saved state reads back as the initial one. */
  lemma SaveLoadRejectsEmptyNode(st: Store, s: StoryState, startNodeId: string, nowMs: int)
    requires s.currentNodeId == ""
    ensures LoadStoryState(SaveStoryState(st, s), s.routeId, startNodeId, nowMs)
      == InitialState(s.routeId, startNodeId, nowMs)
  {
  }

  /** A blob written before `choiceHistory` and `startTime` existed still loads, with both defaulted. */
  lemma LegacyBlobLoads(st: Store, raw: RawState, routeId: RouteId, startNodeId: string, nowMs: int)
    requires st.available
    requires PassesShapeCheck(raw, routeId)
    requires raw.choiceHistory.None? && raw.startTime.None?
    ensures var r := LoadStoryState(Set(st, RouteKey(routeId), SessionDoc(raw)), routeId, startNodeId, nowMs);
      && r.choiceHistory == []
      && r.startTime == Some(nowMs)
      && Some(r.currentNodeId) == raw.currentNodeId
  {
  }

  /** After clearing, the route has no saved progress and loads as the initial state. */
  lemma ClearForgetsProgress(st: Store, routeId: RouteId, startNodeId: string, nowMs: int)
    ensures !HasSavedProgress(ClearStoryState(st, routeId), routeId)
    ensures LoadStoryState(ClearStoryState(st, routeId), routeId, startNodeId, nowMs)
      == InitialState(routeId, startNodeId, nowMs)
  {
  }

  /** Saving one route's session leaves the other route's saved session as it was. */
  lemma SaveKeepsOtherRoute(st: Store, s: StoryState, other: RouteId, startNodeId: string, nowMs: int)
    requires other != s.routeId
    ensures LoadStoryState(SaveStoryState(st, s), other, startNodeId, nowMs)
      == LoadStoryState(st, other, startNodeId, nowMs)
  {
    StorageKeysDistinct();
  }
}

=== FILE: storage.dfy ===
/**
 * The browser key/value store behind lib/story/persistence.ts, and the
 * records the runtime keeps in it.
 *
 * A payload is the value `JSON.parse` would produce from the stored text, so
 * `JSON.stringify` followed by `JSON.parse` is the identity here. Text that
 * does not parse is `Unparseable`; text that parses to something other than
 * the object or list a reader expects is `OtherJson`. When no storage backend
 * exists (server-side rendering) the store is not `available`: reads see no
 * key and writes change nothing.
 */
module Storage {
  import opened Wrappers
  import opened StoryTypes

  /** A wall-clock instant as produced by `toISOString()`, which is never empty. */
  type IsoTime = s: string | s != "" witness "1970-01-01T00:00:00.000Z"

  /** One entry of the ending registry. */
  datatype EndingUnlock = EndingUnlock(route: RouteId, endingKey: string, unlockedAt: string)

  datatype Category = Completion | Exploration | Alignment | Speed | Secret

  /**
   * An achievement: the catalog fields copied from its definition, plus the
   * unlock state (`unlockedAt`, `progress`) kept for it in storage.
   */
  datatype Achievement = Achievement(
    id: string,
    title: string,
    description: string,
    category: Category,
    icon: Option<string>,
    unlockedAt: Option<string>,
    progress: Option<int>,
    maxProgress: Option<int>)

  datatype Bookmark = Bookmark(
    id: string,
    route: RouteId,
    nodeId: string,
    nodeTitle: Option<string>,
    quote: Option<string>,
    note: Option<string>,
    createdAt: string,
    chapter: int)

  /** An alternate ("what if") timeline: a stored copy of a session state. */
  datatype Timeline = Timeline(
    id: string,
    name: string,
    route: RouteId,
    state: StoryState,
    branchedFrom: Option<string>,
    createdAt: string,
    isMain: bool)

  /** The stats object of a parsed session blob; `None` is a field that is not a number. */
  datatype RawStats = RawStats(
    painterAlignment: Option<int>,
    writerAlignment: Option<int>,
    balance: Option<int>)

  /**
   * A parsed session blob before validation: every field the loader inspects
   * may be missing. `currentChapter` is not inspected and is carried as is.
   */
  datatype RawState = RawState(
    routeId: Option<string>,
    currentNodeId: Option<string>,
    stats: Option<RawStats>,
    flags: Option<map<string, bool>>,
    seenNodes: Option<seq<string>>,
    currentChapter: int,
    choiceHistory: Option<seq<ChoiceHistoryEntry>>,
    startTime: Option<int>)

  /** What one key of the store holds, as `JSON.parse` sees it. */
  datatype Payload =
    | Unparseable
    | OtherJson
    | SessionDoc(raw: RawState)
    | EndingsDoc(endings: seq<EndingUnlock>)
    | AchievementsDoc(achievements: seq<Achievement>)
    | BookmarksDoc(bookmarks: seq<Bookmark>)
    | TimelinesDoc(timelines: seq<Timeline>)

  /** The key/value store; `available` is false where `window` is undefined. */
  datatype Store = Store(available: bool, data: map<string, Payload>)

  /** `localStorage.getItem`: absent for a missing key and for an unavailable store. */
  function Get(st: Store, key: string): (r: Option<Payload>)
    ensures r.Some? <==> st.available && key in st.data
  {
    if st.available && key in st.data then Some(st.data[key]) else None
  }

  /** `localStorage.setItem`: the key reads back the payload and no other key changes. */
  function Set(st: Store, key: string, p: Payload): (r: Store)
    ensures r.available == st.available
    ensures st.available ==> Get(r, key) == Some(p)
    ensures !st.available ==> r == st
    ensures forall k :: k != key ==> Get(r, k) == Get(st, k)
  {
    if st.available then st.(data := st.data[key := p]) else st
  }

  /** `localStorage.removeItem`: the key reads as absent and no other key changes. */
  function Remove(st: Store, key: string): (r: Store)
    ensures r.available == st.available
    ensures Get(r, key).None?
    ensures !st.available ==> r == st
    ensures forall k :: k != key ==> Get(r, k) == Get(st, k)
  {
    if st.available then st.(data := st.data - {key}) else st
  }

  const StoragePrefix: string := "fractured_paths_"

  /** The session blob of one route. */
  function RouteKey(r: RouteId): string
  {
    StoragePrefix + "route_" + r.Name()
  }

  const EndingsKey: string := StoragePrefix + "endings"
  const AchievementsKey: string := StoragePrefix + "achievements"
  const BookmarksKey: string := StoragePrefix + "bookmarks"
  const TimelinesKey: string := StoragePrefix + "timelines"

  /** The alternate timelines of one route. */
  function TimelinesKeyOf(r: RouteId): string
  {
    TimelinesKey + "_" + r.Name()
  }

  /**
   * The seven keys the runtime writes are pairwise distinct, so a write to
   * one store leaves every other store as it was.
   */
  lemma StorageKeysDistinct()
    ensures RouteKey(Verso) != RouteKey(Maelle)
    ensures TimelinesKeyOf(Verso) != TimelinesKeyOf(Maelle)
    ensures forall r: RouteId ::
      && RouteKey(r) != EndingsKey
      && RouteKey(r) != AchievementsKey
      && RouteKey(r) != BookmarksKey
      && TimelinesKeyOf(r) != EndingsKey
      && TimelinesKeyOf(r) != AchievementsKey
      && TimelinesKeyOf(r) != BookmarksKey
    ensures forall r, q: RouteId :: RouteKey(r) != TimelinesKeyOf(q)
    ensures EndingsKey != AchievementsKey && EndingsKey != BookmarksKey
    ensures AchievementsKey != BookmarksKey
  {
    // After the shared prefix, each key starts with a different letter.
    forall r: RouteId
      ensures RouteKey(r)[16] == 'r' && TimelinesKeyOf(r)[16] == 't'
    {
    }
    assert EndingsKey[16] == 'e' && AchievementsKey[16] == 'a' && BookmarksKey[16] == 'b';
  }

  /** A route's session key is none of the keys of the lifetime stores. */
  lemma RouteKeyIsOwn(r: RouteId)
    ensures RouteKey(r) != EndingsKey && RouteKey(r) != AchievementsKey && RouteKey(r) != BookmarksKey
  {
    assert RouteKey(r)[16] == 'r';
  }
}

=== FILE: story_engine.dfy ===
/**
 * The story player of components/story/StoryEngine.tsx, reduced to its
 * logic: the session it holds, the node it shows, and the store writes its
 * effects perform. Each handler returns the engine after the update and the
 * store after every write the update causes, including the save the state
 * change triggers.
 */
module StoryEngine {
  import opened Wrappers
  import opened StoryTypes
  import opened Storage
  import opened Session
  import opened ChoiceResolver
  import opened Endings
  import opened Achievements
  import opened Lists

  /**
   * One mounted player: its route, story graph and start node (the
   * component's props), the session it holds, and the node on screen
   * (`None` while the player shows its loading message).
   */
  datatype Engine = Engine(
    routeId: RouteId,
    nodes: seq<StoryNode>,
    startNodeId: string,
    state: StoryState,
    shown: Option<StoryNode>)
  {
    /** The held session belongs to the player's route. */
    predicate Valid()
    {
      state.routeId == routeId
    }
  }

  /**
   * The node effect: the node with the session's current id, or the node
   * already on screen when no node has that id.
   */
  function ShowNode(shown: Option<StoryNode>, nodes: seq<StoryNode>, id: string): (r: Option<StoryNode>)
    ensures FindNode(nodes, id).Some? ==> r.Some? && r.value.id == id
    ensures FindNode(nodes, id).None? ==> r == shown
  {
    match FindNode(nodes, id)
    case Some(n) => Some(n)
    case None => shown
  }

  /**
   * Mounting: the session is loaded from the store (falling back to a fresh
   * one), the save effect writes it straight back, and the node effect
   * looks up its current node.
   */
  function Mount(st: Store, routeId: RouteId, nodes: seq<StoryNode>, startNodeId: string, nowMs: int): (r: (Engine, Store))
    ensures r.0.Valid()
    ensures r.0.state == LoadStoryState(st, routeId, startNodeId, nowMs)
    ensures r.1.available == st.available
    ensures st.available ==> Get(r.1, RouteKey(routeId)) == Some(SessionDoc(Encode(r.0.state)))
    ensures forall k :: k != RouteKey(routeId) ==> Get(r.1, k) == Get(st, k)
  {
    var state := LoadStoryState(st, routeId, startNodeId, nowMs);
    (Engine(routeId, nodes, startNodeId, state, ShowNode(None, nodes, state.currentNodeId)),
     SaveStoryState(st, state))
  }

  /** The ending registration of `handleChoice`: unlock the target's ending, if it declares one. */
  function RegisterEnding(st: Store, routeId: RouteId, choice: Choice, nodes: seq<StoryNode>, now: IsoTime): (r: Store)
    ensures r.available == st.available
    ensures st.available && EndingReached(choice, nodes).Some? ==>
      IsEndingUnlocked(r, routeId, EndingReached(choice, nodes).value)
    ensures EndingReached(choice, nodes).None? ==> r == st
    ensures forall k :: k != EndingsKey ==> Get(r, k) == Get(st, k)
  {
    match EndingReached(choice, nodes)
    case Some(key) => UnlockEnding(st, routeId, key, now)
    case None => st
  }

  /**
   * The store writes of `handleChoice`: the ending the target declares is
   * registered for `routeId`, then the new session `next` is saved.
   */
  function ChoiceWrites(st: Store, routeId: RouteId, next: StoryState, choice: Choice, nodes: seq<StoryNode>, now: IsoTime): (r: Store)
    ensures r.available == st.available
    ensures st.available && EndingReached(choice, nodes).Some? ==>
      IsEndingUnlocked(r, routeId, EndingReached(choice, nodes).value)
    ensures EndingReached(choice, nodes).None? ==> LoadUnlockedEndings(r) == LoadUnlockedEndings(st)
    ensures forall k :: k != RouteKey(next.routeId) && k != EndingsKey ==> Get(r, k) == Get(st, k)
  {
    RouteKeyIsOwn(next.routeId);
    SaveStoryState(RegisterEnding(st, routeId, choice, nodes, now), next)
  }

  /**
   * `handleChoice`, once its delay has passed: the session moves along the
   * choice, an ending the target node declares is registered for the
   * player's route, and the new session is saved.
   */
  function HandleChoice(e: Engine, st: Store, choice: Choice, now: IsoTime): (r: (Engine, Store))
    ensures r.0.state == ApplyChoice(e.state, choice, e.nodes)
    ensures r.0.routeId == e.routeId && r.0.nodes == e.nodes && r.0.startNodeId == e.startNodeId
    ensures e.Valid() ==> r.0.Valid()
    ensures r.1.available == st.available
    ensures st.available && EndingReached(choice, e.nodes).Some? ==>
      IsEndingUnlocked(r.1, e.routeId, EndingReached(choice, e.nodes).value)
    ensures EndingReached(choice, e.nodes).None? ==> LoadUnlockedEndings(r.1) == LoadUnlockedEndings(st)
    ensures forall k :: k != RouteKey(e.state.routeId) && k != EndingsKey ==> Get(r.1, k) == Get(st, k)
  {
    var next := ApplyChoice(e.state, choice, e.nodes);
    (e.(state := next, shown := ShowNode(e.shown, e.nodes, next.currentNodeId)),
     ChoiceWrites(st, e.routeId, next, choice, e.nodes, now))
  }

  /**
   * `handleRestart`: the route's blob is removed and the session replaced by
   * a fresh one, which the save effect then writes.
   */
  function HandleRestart(e: Engine, st: Store, nowMs: int): (r: (Engine, Store))
    ensures r.0.state == InitialState(e.routeId, e.startNodeId, nowMs)
    ensures r.0.Valid()
    ensures r.1.available == st.available
    ensures forall k :: k != RouteKey(e.routeId) ==> Get(r.1, k) == Get(st, k)
  {
    var initial := InitialState(e.routeId, e.startNodeId, nowMs);
    (e.(state := initial, shown := ShowNode(e.shown, e.nodes, initial.currentNodeId)),
     SaveStoryState(ClearStoryState(st, e.routeId), initial))
  }

  /**
   * The choice buttons on screen: none while no node is shown, none on an
   * ending (which shows the restart and navigation actions instead), and
   * otherwise the visible choices of the shown node, in authored order.
   */
  function OnScreenChoices(e: Engine): (r: seq<Choice>)
    ensures e.shown.None? || e.shown.value.isEnding ==> r == []
    ensures e.shown.Some? && !e.shown.value.isEnding ==>
      && (forall c :: c in r <==> c in e.shown.value.choices && IsVisible(c, e.state))
      && SubsequenceOf(r, e.shown.value.choices)
      && (forall c :: Count(r, c) == if IsVisible(c, e.state) then Count(e.shown.value.choices, c) else 0)
  {
    if e.shown.None? || e.shown.value.isEnding then [] else AvailableChoices(e.shown.value.choices, e.state)
  }

  /**
   * Every offered choice is visible, so filtering the buttons again by the
   * same session offers the same buttons.
   */
  lemma OnScreenChoicesStable(e: Engine)
    ensures forall c :: c in OnScreenChoices(e) ==> IsVisible(c, e.state)
    ensures AvailableChoices(OnScreenChoices(e), e.state) == OnScreenChoices(e)
  {
  }

  /**
   * After a restart the store holds the fresh session: reloading the route
   * gives it back, whatever time the reload happens at, as long as the start
   * node is non-empty and the start time is not zero.
   */
  lemma RestartThenReload(e: Engine, st: Store, nowMs: int, laterMs: int)
    requires st.available
    requires e.startNodeId != "" && nowMs != 0
    ensures LoadStoryState(HandleRestart(e, st, nowMs).1, e.routeId, e.startNodeId, laterMs)
      == InitialState(e.routeId, e.startNodeId, nowMs)
  {
    var initial := InitialState(e.routeId, e.startNodeId, nowMs);
    SaveLoadRoundTrip(ClearStoryState(st, e.routeId), initial, e.startNodeId, laterMs);
  }

  /** A restart forgets only the session: endings, achievements and bookmarks survive it. */
  lemma RestartKeepsLifetimeProgress(e: Engine, st: Store, nowMs: int)
    ensures var after := HandleRestart(e, st, nowMs).1;
      && LoadUnlockedEndings(after) == LoadUnlockedEndings(st)
      && LoadAchievements(after) == LoadAchievements(st)
      && Get(after, BookmarksKey) == Get(st, BookmarksKey)
  {
    StorageKeysDistinct();
  }

  /**
   * The player never evaluates achievements: a choice leaves the
   * achievement store as it was, even when it reaches an ending.
   */
  lemma ChoiceLeavesAchievements(e: Engine, st: Store, choice: Choice, now: IsoTime)
    ensures LoadAchievements(HandleChoice(e, st, choice, now).1) == LoadAchievements(st)
  {
    RouteKeyIsOwn(e.state.routeId);
    assert Get(HandleChoice(e, st, choice, now).1, AchievementsKey) == Get(st, AchievementsKey);
  }

  /**
   * A choice's new session is what the route's blob then holds: reloading
   * gives it back when its target is a non-empty id and it has a non-zero
   * start time.
   */
  lemma ChoiceIsPersisted(e: Engine, st: Store, choice: Choice, now: IsoTime, startNodeId: string, laterMs: int)
    requires st.available && e.Valid()
    requires choice.nextId != ""
    requires e.state.startTime.Some? && e.state.startTime.value != 0
    ensures var r := HandleChoice(e, st, choice, now);
      LoadStoryState(r.1, e.routeId, startNodeId, laterMs) == r.0.state
  {
    var r := HandleChoice(e, st, choice, now);
    var registered := RegisterEnding(st, e.routeId, choice, e.nodes, now);
    SaveLoadRoundTrip(registered, r.0.state, startNodeId, laterMs);
  }

  /**
   * Reaching the same ending again adds no record: the number of records of
   * the ending is one after the first time and stays as it was afterwards.
   */
  lemma EndingRecordedOnce(e: Engine, st: Store, choice: Choice, now: IsoTime)
    requires st.available
    requires EndingReached(choice, e.nodes).Some?
    ensures var key := EndingReached(choice, e.nodes).value;
      var before, after := LoadUnlockedEndings(st), LoadUnlockedEndings(HandleChoice(e, st, choice, now).1);
      CountEnding(after, e.routeId, key) == if HasEnding(before, e.routeId, key) then CountEnding(before, e.routeId, key) else 1
  {
    var registered := RegisterEnding(st, e.routeId, choice, e.nodes, now);
    var next := ApplyChoice(e.state, choice, e.nodes);
    RouteKeyIsOwn(next.routeId);
    assert Get(SaveStoryState(registered, next), EndingsKey) == Get(registered, EndingsKey);
  }

  /** A transition keeps the session's axes in [0, 100] when they start there. */
  lemma ChoiceKeepsStatsInRange(e: Engine, st: Store, choice: Choice, now: IsoTime)
    requires e.state.stats.InRange()
    ensures HandleChoice(e, st, choice, now).0.state.stats.InRange()
  {
    ApplyChoiceKeepsStatsInRange(e.state, choice, e.nodes);
  }

  /**
   * When the target id names no node, the screen keeps the previous node
   * (and its choices) although the session has moved to the missing id.
   */
  lemma DanglingTargetKeepsScreen(e: Engine, st: Store, choice: Choice, now: IsoTime)
    requires FindNode(e.nodes, choice.nextId).None?
    ensures var r := HandleChoice(e, st, choice, now).0;
      r.shown == e.shown && r.state.currentNodeId == choice.nextId
  {
  }

  /** Mounting twice in a row holds the same session and leaves the same store. */
  lemma MountIsStable(st: Store, routeId: RouteId, nodes: seq<StoryNode>, startNodeId: string, nowMs: int, laterMs: int)
    requires st.available
    requires startNodeId != "" && nowMs != 0
    ensures var first := Mount(st, routeId, nodes, startNodeId, nowMs);
      var second := Mount(first.1, routeId, nodes, startNodeId, laterMs);
      second.0.state == first.0.state && second.1 == first.1
  {
    var s := LoadStoryState(st, routeId, startNodeId, nowMs);
    SaveLoadRoundTrip(st, s, startNodeId, laterMs);
    var st1 := SaveStoryState(st, s);
    assert st1.data[RouteKey(routeId) := SessionDoc(Encode(s))] == st1.data;
  }
}

=== FILE: story_types.dfy ===
/**
 * The data model of the story runtime (lib/story/types.ts): routes, the three
 * alignment axes, choice effects and conditions, story nodes, history entries
 * and the per-route session state.
 */
module StoryTypes {
  import opened Wrappers

  /** `StoryRouteId`: exactly two routes, spelled "verso" and "maelle". */
  datatype RouteId = Verso | Maelle {

    function Name(): string
    {
      match this
      case Verso => "verso"
      case Maelle => "maelle"
    }
  }

  /** Reads a route name back; every other string is not a route. */
  function ParseRoute(s: string): (r: Option<RouteId>)
    ensures r.Some? <==> (s == "verso" || s == "maelle")
    ensures r.Some? ==> r.value.Name() == s
  {
    if s == "verso" then Some(Verso)
    else if s == "maelle" then Some(Maelle)
    else None
  }

  /** Every route's name reads back as that route, and the two names differ. */
  lemma RouteNameRoundTrip(r: RouteId)
    ensures ParseRoute(r.Name()) == Some(r)
    ensures Verso.Name() != Maelle.Name()
  {
  }

  /** The three alignment axes a stat effect or stat condition may name. */
  datatype StatKey = PainterAlignment | WriterAlignment | Balance {

    function Name(): string
    {
      match this
      case PainterAlignment => "painterAlignment"
      case WriterAlignment => "writerAlignment"
      case Balance => "balance"
    }
  }

  /** `key in state.stats` for a condition key: the axis it names, if any. */
  function StatKeyOf(key: string): (r: Option<StatKey>)
    ensures r.Some? ==> r.value.Name() == key
    ensures r.None? ==> forall k: StatKey :: k.Name() != key
  {
    if key == "painterAlignment" then Some(PainterAlignment)
    else if key == "writerAlignment" then Some(WriterAlignment)
    else if key == "balance" then Some(Balance)
    else None
  }

  /** The three axes of `StoryState.stats`; each is documented as lying in 0..100. */
  datatype Stats = Stats(painterAlignment: int, writerAlignment: int, balance: int) {

    function Get(k: StatKey): int
    {
      match k
      case PainterAlignment => painterAlignment
      case WriterAlignment => writerAlignment
      case Balance => balance
    }

    /** Overwrites one axis; the other two are unchanged. */
    function Set(k: StatKey, v: int): (r: Stats)
      ensures r.Get(k) == v
      ensures forall j: StatKey :: j != k ==> r.Get(j) == Get(j)
    {
      match k
      case PainterAlignment => this.(painterAlignment := v)
      case WriterAlignment => this.(writerAlignment := v)
      case Balance => this.(balance := v)
    }

    /** The documented 0-100 range of every axis. */
    predicate InRange()
    {
      forall k: StatKey :: 0 <= Get(k) <= 100
    }
  }

  /**
   * `StoryChoiceEffect`, a closed tagged union: a signed delta on one axis,
   * or a boolean written to a freely named flag.
   */
  datatype Effect =
    | StatEffect(statKey: StatKey, delta: int)
    | FlagEffect(flagKey: string, value: bool)

  /**
   * The `type` field of a choice condition. The declared type admits only
   * "flag" and "stat"; story content is parsed JSON, so any other tag is
   * representable and the visibility filter lets it through.
   */
  datatype ConditionType = FlagCondition | StatCondition | OtherCondition(tag: string)

  /** The optional `value?: boolean | number` of a condition. */
  datatype ConditionValue = NoValue | BoolValue(b: bool) | NumberValue(n: int)

  /** A choice's visibility gate: flag equality, or an inclusive stat range with optional bounds. */
  datatype Condition = Condition(
    kind: ConditionType,
    key: string,
    value: ConditionValue,
    min: Option<int>,
    max: Option<int>)

  /** `StoryChoice` (`label` is spelled `labelText`, since `label` is a Dafny keyword); an absent `effects` list behaves as the empty one. */
  datatype Choice = Choice(
    id: string,
    labelText: string,
    nextId: string,
    effects: seq<Effect>,
    condition: Option<Condition>)

  /**
   * `StoryNode`; an absent `isEnding` behaves as false. Only a node with
   * `isEnding` and a non-empty `endingKey` feeds the ending registry.
   */
  datatype StoryNode = StoryNode(
    id: string,
    route: RouteId,
    chapter: int,
    title: Option<string>,
    text: string,
    choices: seq<Choice>,
    isEnding: bool,
    endingKey: Option<string>,
    endingTitle: Option<string>)

  /** `ChoiceHistoryEntry.statChanges`: deltas over the three axes only. */
  datatype StatChanges = StatChanges(
    painterAlignment: Option<int>,
    writerAlignment: Option<int>,
    balance: Option<int>)

  datatype ChoiceHistoryEntry = ChoiceHistoryEntry(
    nodeId: string,
    nodeTitle: Option<string>,
    choiceId: string,
    choiceLabel: string,
    timestamp: int,
    statChanges: Option<StatChanges>,
    flagsSet: Option<map<string, bool>>,
    chapter: int)

  /** `StoryState`: one playthrough of one route. `startTime` is optional. */
  datatype StoryState = StoryState(
    routeId: RouteId,
    currentNodeId: string,
    stats: Stats,
    flags: map<string, bool>,
    seenNodes: seq<string>,
    currentChapter: int,
    choiceHistory: seq<ChoiceHistoryEntry>,
    startTime: Option<int>)

  /** A list in which no element occurs twice. */
  predicate NoDuplicates<T(==)>(s: seq<T>)
  {
    forall i, j :: 0 <= i < j < |s| ==> s[i] != s[j]
  }

  /** JavaScript truthiness of an optional string: present and non-empty. */
  predicate Truthy(o: Option<string>)
  {
    o.Some? && o.value != ""
  }
}

=== FILE: timelines.dfy ===
/**
 * The "what if" timelines of lib/story/persistence.ts: per route, a stored
 * list of alternate timelines, each holding its own copy of a session
 * state, plus a main timeline that is never stored but read from the
 * route's live session.
 */
module Timelines {
  import opened Wrappers
  import opened StoryTypes
  import opened Storage
  import opened Lists
  import opened Session

  /** `loadTimelines`: the route's stored list, or empty when absent, unparseable or not a list. */
  function LoadTimelines(st: Store, route: RouteId): (r: seq<Timeline>)
    ensures Get(st, TimelinesKeyOf(route)).Some? && Get(st, TimelinesKeyOf(route)).value.TimelinesDoc? ==>
      r == Get(st, TimelinesKeyOf(route)).value.timelines
    ensures Get(st, TimelinesKeyOf(route)).None? || !Get(st, TimelinesKeyOf(route)).value.TimelinesDoc? ==> r == []
  {
    match Get(st, TimelinesKeyOf(route))
    case Some(TimelinesDoc(l)) => l
    case _ => []
  }

  /** `saveTimelines`: the route's list reads back as written and no other key changes. */
  function SaveTimelines(st: Store, route: RouteId, l: seq<Timeline>): (r: Store)
    ensures r.available == st.available
    ensures st.available ==> LoadTimelines(r, route) == l
    ensures !st.available ==> r == st
    ensures forall k :: k != TimelinesKeyOf(route) ==> Get(r, k) == Get(st, k)
  {
    Set(st, TimelinesKeyOf(route), TimelinesDoc(l))
  }

  /**
   * `createTimeline`. `id` and `createdAt` stand for the generated
   * identifier and the current time. The new record is never main, carries
   * the given route, name, origin and a copy of `state`, and is appended to
   * the route's list; it is returned even when there is no store.
   */
  function CreateTimeline(
    st: Store, route: RouteId, state: StoryState, name: string, branchedFrom: Option<string>,
    id: string, createdAt: IsoTime): (r: (Store, Timeline))
    ensures !r.1.isMain && r.1.state == state && r.1.route == route
    ensures r.1.id == id && r.1.name == name && r.1.branchedFrom == branchedFrom && r.1.createdAt == createdAt
    ensures r.0.available == st.available
    ensures st.available ==> LoadTimelines(r.0, route) == LoadTimelines(st, route) + [r.1]
    ensures !st.available ==> r.0 == st
    ensures forall k :: k != TimelinesKeyOf(route) ==> Get(r.0, k) == Get(st, k)
  {
    var t := Timeline(id, name, route, state, branchedFrom, createdAt, false);
    (SaveTimelines(st, route, LoadTimelines(st, route) + [t]), t)
  }

  /** The first timeline of the list carrying `id`. */
  function FindTimeline(l: seq<Timeline>, id: string): (r: Option<Timeline>)
    ensures r.None? <==> forall t :: t in l ==> t.id != id
    ensures r.Some? ==> r.value in l && r.value.id == id
    decreases |l|
  {
    if |l| == 0 then None
    else if l[0].id == id then Some(l[0])
    else FindTimeline(l[1..], id)
  }

  /** The search answers with the earliest match, not merely some match. */
  lemma {:induction false} FindTimelineIsEarliest(l: seq<Timeline>, id: string, i: nat)
    requires i < |l| && l[i].id == id
    requires forall j :: 0 <= j < i ==> l[j].id != id
    ensures FindTimeline(l, id) == Some(l[i])
    decreases i
  {
    if i > 0 {
      FindTimelineIsEarliest(l[1..], id, i - 1);
    }
  }

  /**
   * `loadTimeline`: the first stored timeline of the route carrying `id`,
   * or nothing when none does.
   */
  function LoadTimeline(st: Store, route: RouteId, id: string): (r: Option<Timeline>)
    ensures r.None? <==> forall t :: t in LoadTimelines(st, route) ==> t.id != id
    ensures r.Some? ==> r.value in LoadTimelines(st, route) && r.value.id == id
  {
    FindTimeline(LoadTimelines(st, route), id)
  }

  /**
   * `deleteTimeline`. Drops the timelines carrying `id` and, whatever `id`
   * is, every stored record marked main; the rest stay in order.
   */
  function DeleteTimeline(st: Store, route: RouteId, id: string): (r: Store)
    ensures r.available == st.available
    ensures forall t :: t in LoadTimelines(r, route) <==> t in LoadTimelines(st, route) && t.id != id && !t.isMain
    ensures forall t :: Count(LoadTimelines(r, route), t) == if t.id != id && !t.isMain then Count(LoadTimelines(st, route), t) else 0
    ensures SubsequenceOf(LoadTimelines(r, route), LoadTimelines(st, route))
    ensures forall k :: k != TimelinesKeyOf(route) ==> Get(r, k) == Get(st, k)
  {
    SaveTimelines(st, route, Filter(LoadTimelines(st, route), (t: Timeline) => t.id != id && !t.isMain))
  }

  /** The node a route's story starts on. */
  function StartNodeOf(route: RouteId): string
  {
    match route
    case Verso => "v_start"
    case Maelle => "m_start"
  }

  /**
   * `getMainTimeline`: a record synthesised from the route's live session,
   * loaded as `loadStoryState` would from the route's start node. `isoOf`
   * renders a millisecond instant as an ISO timestamp; the record's
   * creation time is the session's start time rendered that way.
   */
  function GetMainTimeline(st: Store, route: RouteId, nowMs: int, isoOf: int -> IsoTime): (r: Timeline)
    ensures r.id == "main" && r.isMain && r.route == route && r.branchedFrom.None?
    ensures r.state == LoadStoryState(st, route, StartNodeOf(route), nowMs)
    ensures r.state.routeId == route
    ensures r.createdAt == isoOf(r.state.startTime.value)
  {
    var state := LoadStoryState(st, route, StartNodeOf(route), nowMs);
    Timeline("main", "Main Timeline", route, state, None, isoOf(state.startTime.value), true)
  }

  /** A new timeline, whose id was unused, is what loading that id returns. */
  lemma CreateThenLoad(
    st: Store, route: RouteId, state: StoryState, name: string, branchedFrom: Option<string>,
    id: string, createdAt: IsoTime)
    requires st.available
    requires forall t :: t in LoadTimelines(st, route) ==> t.id != id
    ensures var c := CreateTimeline(st, route, state, name, branchedFrom, id, createdAt);
      LoadTimeline(c.0, route, id) == Some(c.1)
  {
    var c := CreateTimeline(st, route, state, name, branchedFrom, id, createdAt);
    var l := LoadTimelines(c.0, route);
    assert l[|l| - 1] == c.1;
    FindTimelineIsEarliest(l, id, |l| - 1);
  }

  /** After deleting an id, loading it finds nothing, and no main record is left. */
  lemma DeleteThenLoad(st: Store, route: RouteId, id: string)
    ensures LoadTimeline(DeleteTimeline(st, route, id), route, id).None?
    ensures forall t :: t in LoadTimelines(DeleteTimeline(st, route, id), route) ==> !t.isMain
  {
  }

  /**
   * A timeline is a frozen copy: playing on and saving the route's session
   * afterwards leaves every stored timeline as it was.
   */
  lemma SessionSaveKeepsTimelines(st: Store, s: StoryState, route: RouteId, id: string)
    ensures LoadTimeline(SaveStoryState(st, s), route, id) == LoadTimeline(st, route, id)
    ensures LoadTimelines(SaveStoryState(st, s), route) == LoadTimelines(st, route)
  {
    StorageKeysDistinct();
  }

  /** The main timeline follows the live session: after a save it holds the saved state. */
  lemma MainTimelineFollowsSession(st: Store, s: StoryState, nowMs: int, isoOf: int -> IsoTime)
    requires st.available
    requires s.currentNodeId != ""
    requires s.startTime.Some? && s.startTime.value != 0
    ensures GetMainTimeline(SaveStoryState(st, s), s.routeId, nowMs, isoOf).state == s
  {
    SaveLoadRoundTrip(st, s, StartNodeOf(s.routeId), nowMs);
  }

  /** Timeline changes on one route leave the other route's timelines and both sessions alone. */
  lemma TimelinesIsolated(st: Store, route: RouteId, other: RouteId, id: string, r: RouteId, startNodeId: string, nowMs: int)
    requires other != route
    ensures LoadTimelines(DeleteTimeline(st, route, id), other) == LoadTimelines(st, other)
    ensures LoadStoryState(DeleteTimeline(st, route, id), r, startNodeId, nowMs) == LoadStoryState(st, r, startNodeId, nowMs)
  {
    StorageKeysDistinct();
  }
}

=== FILE: wrappers.dfy ===
/** Optional values: a TypeScript field that may be `undefined`, or a `find` that may miss. */
module Wrappers {

  datatype Option<+T> = None | Some(value: T) {

    /** Returns the wrapped value, or `default` when there is none. */
    function GetOr(default: T): T
    {
      match this
      case Some(v) => v
      case None => default
    }
  }
}
